=== FILE: README.md ===
# Halide stage scheduling directives, modelled in Dafny

This project models the loop-schedule directive engine of a Halide stage
(`Halide/src/Func.cpp`). A stage is one definition of a `Func`, pure or
update. Its schedule is an ordered list of loop dimensions, innermost first,
plus a history of split-like entries that explains how each loop name came
about. Each directive checks its arguments against that state and rewrites
the list and the history; a failed check throws. The model gives each
directive as a pure function from a `Stage` to `Result<Stage, Error>`, which
either fails with nothing changed or returns the rewritten stage. The source
sometimes rewrites the list before a later check fails; "## Left out" lists
where.

- `Names`: name resolution by suffix (`var_name_match`). A directive names a
  loop by an unqualified name, while the list stores qualified names such as
  `x.xo.xoo`.
- `Schedule`: the data model (`Dim`, `Split`, `Stage`, `Error`) and the
  first-match and last-match searches.
- `DimTypes`: `set_dim_type` with its race gate and its one-vectorized-loop
  rule, plus the `allow_race_conditions` and `atomic` flags.
- `Splitting`: `split`, both overloads, including the automatic choice of
  tail strategy.
- `Fusing`: `fuse`.
- `Renaming`: `rename` and `purify`.
- `Removing`: `remove_dimension`.
- `Reordering`: `reorder`, including the retargeting of a `compute_with`
  fuse level.
- `Rfactoring`: the validation and rvar partition that start `rfactor`.
- `Seqs` and `Wrappers`: sequence tools and the `Option`/`Result` types.

External oracles are parameters:

- The associativity prover is an `AssocResult(associative, commutative)`.
- `can_prove(a >= b)` is a function `proveGe`.

Two predicates come from a header that is not part of this model. They are
defined by assumption:

- `Dim::is_pure()` holds for `PureVar` and `PureRVar`.
- `Dim::is_rvar()` holds for `PureRVar` and `ImpureRVar`.

`is_parallel` is assumed to hold for `Parallel`, `Vectorized`, `GPUBlock`,
`GPUThread` and `GPULane`. A failed `internal_assert` on the loop list or the
history is modelled as `Err(InternalError)`. The assertions that the prover
returns one result per update value (Halide/src/Func.cpp:345 and 663) have
no counterpart: `AssocResult` carries no tuple size, so they cannot fail in
the model.

## Model

| member | source | states |
|---|---|---|
| Names.QualifiedNameMatches | Halide/src/Func.cpp:305-311 | a loop name qualified by `"." + v` is referred to by `v`; this is what lets later directives name `x.xi` as `xi` |
| Names.QualifyingKeepsMatch | Halide/src/Func.cpp:305-311 | qualifying a name further keeps every suffix it already answered to |
| Names.QualifiedMatchesOnlyItsSuffix | Halide/src/Func.cpp:305-311 | `p.a` answers to no unqualified name other than `a` |
| Names.UnqualifiedMatchesOnlyItself | Halide/src/Func.cpp:305-311 | an unqualified loop name answers only to itself |
| Schedule.FindFirst | Halide/src/Func.cpp:972-974 | the index found refers to `v` and no earlier loop does; None exactly when no loop refers to `v` |
| Schedule.FindLast | Halide/src/Func.cpp:1560-1567 | the index found refers to `v` and no later loop does; None exactly when no loop refers to `v` |
| DimTypes.MarkDims | Halide/src/Func.cpp:322-372 | succeeds iff no other loop is already vectorized when vectorizing, and the race gate is open whenever an impure reduction loop is named as an RVar with a parallel type; on success each matching loop gets the type and others are untouched; each error names its cause |
| DimTypes.SetDimType | Halide/src/Func.cpp:319-382 | succeeds iff `var` refers to some loop and the loop walk succeeds; a failed walk reports its own error (associativity, race or vectorization), and otherwise a missing loop reports `DimNotFound`; on success only loop types change, exactly those of the loops `var` refers to |
| DimTypes.MarkDimsIdempotent | Halide/src/Func.cpp:322-372 | walking the loops a second time with the same variable and type changes nothing more |
| DimTypes.MarkDimsSameFlags | Halide/src/Func.cpp:329-365 | the walk depends on the stage only through its race, atomic and associativity-override flags |
| DimTypes.AllowRaceConditions | Halide/src/Func.cpp:1460-1463 | after the flag the race gate is open for every prover answer; loops, history and fuse level are untouched |
| DimTypes.Atomic | Halide/src/Func.cpp:1465-1469 | after the flag the race gate is open exactly when races were already allowed, the associativity test is overridden, or the prover shows associativity; `allow_race_conditions` and everything but the two atomic flags are left as they were |
| DimTypes.AllowRaceConditionsOpensGate | Halide/src/Func.cpp:329-365 | after `allow_race_conditions`, `set_dim_type` never fails with a race or atomicity error |
| DimTypes.AtomicOpensGateWhenAssociative | Halide/src/Func.cpp:329-365 | after `atomic`, a race error is impossible, and the atomicity error needs a failed proof and no override |
| DimTypes.SetDimTypeIdempotent | Halide/src/Func.cpp:319-382 | setting the same type through the same variable twice gives the same stage as doing it once |
| DimTypes.RaceGateOnImpureReduction | Halide/src/Func.cpp:329-365 | an impure reduction loop cannot go parallel as it stands; after `atomic()` it can iff the prover shows associativity |
| Splitting.InnerVarsClosed | Halide/src/Func.cpp:1002-1018 | the set of loops descending from an inner split variable holds every split inner, every output of a descendant, and every fuse of a descendant |
| Splitting.InnerVars | Halide/src/Func.cpp:1002-1018 | every name in the set was made by some history entry: a split's inner or outer loop, a rename or purify result, or a fuse result |
| Splitting.ShiftInwardsOuter | Halide/src/Func.cpp:1058-1070 | every factor recorded for a descendant of a ShiftInwards outer loop is the factor of some ShiftInwards split in the history |
| Splitting.ResolveTail | Halide/src/Func.cpp:996-1093 | the chosen tail is never Auto, never ShiftInwards in an update, always GuardWithIf when exact; Auto resolves as the three rules say; an error occurs exactly for RoundUp on an inner descendant in an update, ShiftInwards in an update, or a non-GuardWithIf tail with `exact` |
| Splitting.FindCollision | Halide/src/Func.cpp:954-966 | reports a new name exactly when inner or outer, other than `old`, already names a loop |
| Splitting.SplitAt | Halide/src/Func.cpp:972-986 | the list grows by one; loop `i` becomes `old.inner` and `old.outer` next to each other; an Extern outer loop becomes Serial; all other loops are unchanged |
| Splitting.SplitDim | Halide/src/Func.cpp:949-1098 | succeeds iff no new name collides, `old` refers to a loop, and the tail strategy resolves for that loop; a collision or a missing `old` is refused in that order, and otherwise a tail-strategy error is passed on unchanged; on success the loops are split as in `SplitAt` at the first loop `old` refers to, and exactly one SplitVar entry with a resolved tail is appended |
| Splitting.SplitVarOrRVar | Halide/src/Func.cpp:1100-1110 | Var/RVar mixing is refused naming the offending argument; an RVar split is exact and so ends with GuardWithIf |
| Splitting.DefaultTailOnInitIsShiftInwards | Halide/src/Func.cpp:1028-1077 | an Auto split of a fresh pure loop uses ShiftInwards |
| Splitting.VectorizeSplitShiftsInwards | Halide/src/Func.cpp:1041-1046 | the split made by `vectorize(x, 8)` is ShiftInwards |
| Splitting.UnrollAfterVectorizeRoundsUp | Halide/src/Func.cpp:1041-1077 | a following `unroll(x, 4)` split is covered by the larger ShiftInwards split and uses RoundUp |
| Splitting.UpdateSplitOfInnerVarGuards | Halide/src/Func.cpp:996-1033 | in an update, RoundUp on an inner descendant is refused, and Auto picks GuardWithIf for it but RoundUp for the outer loop |
| Fusing.FusedKindKeepsPurity | Halide/src/Func.cpp:1157-1164 | a fused loop stays a reduction loop iff the inner one was, and is pure iff both were |
| Fusing.Fuse | Halide/src/Func.cpp:1112-1180 | succeeds iff the three arguments are all Vars or all RVars, `outer` refers to a loop, `inner` refers to one of the others, and the two loops are compatible; mixing and missing loops are refused in the source's order, and incompatible loops fail the internal assertion; on success the outer loop is erased, the inner one is renamed `inner.fused` with its type kept and its kind never promoted, the list shrinks by one, and one FuseVars entry is appended |
| Fusing.SplitThenFuse | Halide/src/Func.cpp:949-1180 | splitting a loop and fusing the two halves back gives the original list with only that loop renamed, plus both history entries |
| Fusing.FuseOfSplitAt | Halide/src/Func.cpp:1112-1180 | fusing the two halves of a split loop renames the loop in place and appends exactly one FuseVars entry |
| Renaming.RewriteDefining | Halide/src/Func.cpp:1413-1450 | the latest history entry that mentions the loop decides: if it made the loop it is rewritten in place, if it consumed the loop the rename is refused, with the already-fused error when that entry is a fuse and the renamed-or-split error otherwise, and if there is none nothing is rewritten |
| Renaming.Rename | Halide/src/Func.cpp:1371-1458 | Var/RVar mixing and a missing loop are refused; a rename is refused exactly when the latest history entry mentioning the loop consumed it, with the error that entry's kind selects; on success exactly the first matching loop gets `"." + new` appended, and the history either has one entry rewritten or one RenameVar entry appended; either way some entry produces the new name |
| Renaming.Purify | Halide/src/Func.cpp:1236-1274 | succeeds iff the old variable is an RVar, the new one is a Var, and the old one refers to a loop; the loop takes the new name unqualified and becomes a pure variable, nothing else in the list changes, and one PurifyRVar entry is appended |
| Renaming.PurifyClearsRaceGate | Halide/src/Func.cpp:1236-1274 | after `purify`, a race error from `set_dim_type` can only come from a loop other than the purified one, which already tripped the gate before |
| Renaming.PurifyUnlocksParallel | Halide/src/Func.cpp:329-365 | an impure reduction loop that cannot be parallelized through its RVar can be once purified into a Var, whatever the prover says |
| Renaming.RenameTwiceRewritesOneEntry | Halide/src/Func.cpp:1371-1458 | a second rename of a renamed loop rewrites the first rename's entry rather than adding one |
| Renaming.RenameOfFusedLoopRefused | Halide/src/Func.cpp:1416-1425 | a loop that was fused away cannot be renamed |
| Removing.FindExact | Halide/src/Func.cpp:1282-1291 | finds the first loop whose name is exactly `var`, with no suffix matching |
| Removing.RemoveWalk | Halide/src/Func.cpp:1302-1368 | the walk fails iff some entry fused, split or renamed the removed loop, reporting the latest one; otherwise the entries it drops satisfy the drop rule (an entry goes exactly when it produced a loop removed by then, counting the sources of the later dropped entries), and the final removed set is the initial one plus the sources of the dropped entries |
| Removing.RemoveDimension | Halide/src/Func.cpp:1276-1369 | a missing exact name is refused, and so is a loop the history already consumed; on success exactly that loop is erased, and the history keeps, in order, exactly the entries the drop rule does not drop; it is unchanged when no entry produced the loop |
| Removing.DropRuleUnique | Halide/src/Func.cpp:1302-1368 | the drop rule has one solution, so it determines the walk's drops completely |
| Removing.DroppedAgainstFinal | Halide/src/Func.cpp:1302-1368 | every dropped entry produced a loop of the final removed set, so an entry that produced none of them is kept |
| Removing.UnrelatedKept | Halide/src/Func.cpp:1302-1368 | an entry that did not produce a removed loop, and whose results no later entry consumed, is not dropped |
| Removing.RemoveKeepsUnrelated | Halide/src/Func.cpp:1276-1369 | after a successful removal such an entry is still in the history: an unrelated rename or split survives |
| Removing.RemoveSplitInner | Halide/src/Func.cpp:1332-1341 | removing the inner loop of a split drops the split and adds the split loop to the removed set |
| Removing.RemoveOfSplitLoopRefused | Halide/src/Func.cpp:1342-1348 | a loop that was split cannot be removed |
| Reordering.ResolveAll | Halide/src/Func.cpp:1558-1573 | every variable resolves to the last loop it refers to; the first variable that refers to none is reported |
| Reordering.FindUnsafe | Halide/src/Func.cpp:1578-1597 | finds the first pair, in the source's scan order, of named impure loops whose nesting the reorder swaps: no such pair from the start point on comes before the one found, and when it finds none there is no such pair from the start point on |
| Reordering.Slots | Halide/src/Func.cpp:1599-1601 | the sorted positions are increasing and a permutation of the resolved ones |
| Reordering.PermuteDims | Halide/src/Func.cpp:1603-1605 | positions no variable occupies keep their loop |
| Reordering.PermuteDimsPermutes | Halide/src/Func.cpp:1599-1605 | with distinct positions, the new list is a permutation of the old one, and the `k`-th named loop lands in the `k`-th smallest named position |
| Reordering.ReorderChecks | Halide/src/Func.cpp:1558-1597 | a missing variable is refused; a pair of impure loops whose relative order flips is refused unless the prover shows associativity and commutativity, and the error names the first such pair in scan order |
| Reordering.PureReorderIsSafe | Halide/src/Func.cpp:1577-1597 | a stage of pure loops never needs the prover |
| Reordering.Retarget | Halide/src/Func.cpp:1607-1650 | the new fuse level answers to the loop now at the old level's position, falling back to the innermost loop; it fails only when no variable answers to that loop |
| Reordering.RetargetFindsMovedLoop | Halide/src/Func.cpp:1607-1650 | when the old level refers to a loop, retargeting always succeeds after a valid reorder |
| Reordering.Reorder | Halide/src/Func.cpp:1551-1656 | the checks' errors are reported; a variable named twice is refused; on success the loops are a reorder of the old ones (see `IsReorder`), only the list and fuse level change, and the fuse level fails only if it refers to no loop; a kept fuse level is the old variable or one of the reorder's variables, and answers to the loop now at the old level's position (the innermost loop when the old level refers to none) |
| Reordering.PermuteDimsIsReorder | Halide/src/Func.cpp:1599-1605 | the permutation fills the named positions in the listed order, keeps the others, and loses and duplicates nothing |
| Reordering.SlotAnswers | Halide/src/Func.cpp:1599-1605 | every loop of the new list is the old loop at that position or a loop one of the variables refers to |
| Reordering.ReorderAsWritten | Halide/src/Func.cpp:1551-1656 | as written: the checks' errors are reported; the list keeps its length and every loop comes from the old list |
| Reordering.AsWrittenAgreesWhenDistinct | Halide/src/Func.cpp:1551-1605 | with distinct variables and no fuse level, the as-written reorder and the corrected one give the same successful result |
| Reordering.DuplicateReorderLosesLoop | Halide/src/Func.cpp:1599-1605 | as written, `reorder(b, a, b)` on loops `[a, b]` succeeds with `[b, b]`, which is not a permutation |
| Reordering.ResolveTwiceNamed | Halide/src/Func.cpp:1558-1573 | in that call both mentions of `b` resolve to the same position, so the positions are not distinct |
| Reordering.DuplicateReorderRefused | Halide/src/Func.cpp:1599-1605 | the corrected reorder refuses the same call with `DuplicateReorder(b)` |
| Reordering.RetargetAsWritten | Halide/src/Func.cpp:1607-1650 | as written: when the loop at the level's position has a qualified name, the internal assertion fails |
| Reordering.LevelSlotName | Halide/src/Func.cpp:1617-1629 | the name now at the old position of the level's loop; the innermost loop's name when the level refers to no loop; nothing when there are no loops |
| Reordering.LevelSlot | Halide/src/Func.cpp:1617-1629 | the loop now at the old position of the level's loop; the innermost loop when the level refers to no loop; nothing exactly when the level refers to no loop and there are no loops |
| Reordering.RetargetAsWrittenFailsOnQualifiedLevel | Halide/src/Func.cpp:1607-1650 | a level on a qualified loop that the reorder leaves in place fails as written but is kept by the corrected update |
| Reordering.RetargetAsWrittenFailsOnSplitLevel | Halide/src/Func.cpp:1607-1650 | the smallest instance: loops `[x.xi, x.xo, y]`, level `xi`, `reorder(y, xo)` |
| Rfactoring.PairError | Halide/src/Func.cpp:674-697 | the reduction-domain complaint comes before the name-collision complaint |
| Rfactoring.CheckPairs | Halide/src/Func.cpp:673-698 | succeeds iff every preserved RVar's first loop is a reduction loop and every new Var names no loop; the first bad pair is reported |
| Rfactoring.OrderWalk | Halide/src/Func.cpp:700-717 | an error from the walk names a factored loop below the starting point |
| Rfactoring.OrderWalkChecksNearest | Halide/src/Func.cpp:700-717 | the non-commutative walk succeeds iff each factored loop's nearest outer reduction loop is factored |
| Rfactoring.NearestReachesOuter | Halide/src/Func.cpp:700-717 | under that local condition, every reduction loop outside a factored loop is factored too |
| Rfactoring.NearestIffClosed | Halide/src/Func.cpp:700-717 | that local condition is equivalent to: every reduction loop outside a factored loop is factored |
| Rfactoring.OrderWalkMeansOuterClosed | Halide/src/Func.cpp:700-717 | the walk as started by the source succeeds iff factoring is closed outwards among reduction loops |
| Rfactoring.RfactorChecks | Halide/src/Func.cpp:649-717 | succeeds iff the stage is an update, the prover shows associativity, every pair is acceptable, and the reduction is commutative or factoring is closed outwards; each error names its cause in the source's order |
| Rfactoring.SortPreserved | Halide/src/Func.cpp:745-758 | the pairs are permuted into the order of the first reduction variable each refers to |
| Rfactoring.MakePlan | Halide/src/Func.cpp:733-782 | the intermediate domain is the reduction variables no pair refers to; it and the kept domain split the reduction domain between them, each in its original order |
| Rfactoring.Rfactor | Halide/src/Func.cpp:649-781 | succeeds iff the checks succeed, with their error otherwise; on success the reduction domain is partitioned between the intermediate and the merge stage, the kept reduction variables keep their order, and the preserved pairs are exactly the given ones sorted by the position of their reduction variable |
| Rfactoring.KeptAgainstPairs | Halide/src/Func.cpp:745-782 | sorting the pairs does not change which reduction variables are kept, so kept and lifted are complementary |
| Rfactoring.InnerRfactorNeedsCommutativity | Halide/src/Func.cpp:700-717 | factoring only the inner of two reduction loops is refused for a non-commutative update, naming that loop, and accepted for a commutative one |

## Left out

- Expression-level work in `rfactor` (Halide/src/Func.cpp:784-946) is not modelled. It needs the IR, the simplifier and the prover internals.
- `apply_split_directive` and `apply_split_result` (Halide/src/Func.cpp:464-641) are not modelled. `Rfactoring.Rfactor` takes the reduction domain after the split directives are applied as the parameter `rvars`, given as names.
- `set_dim_device_api` and every `DeviceAPI` argument are not modelled: device APIs are not part of the loop-list state.
- The forwarding wrappers `serial`, `parallel`, `vectorize`, `unroll`, `tile` and the GPU directives are not modelled separately. Each is `SetDimType`, a split, or a reorder.
- Split factors are positive integer constants, and `can_prove(a >= b)` is the parameter `proveGe`. A fuse's undefined factor is stored as 0 and never read.
- `std::sort` is not stable; the model sorts with a stable insertion sort. The rfactor pairs' order among pairs that name the same reduction variable is therefore fixed by the model, where C++ leaves it open.
- Directive arguments are assumed to be unqualified names. `var_name_match` has an internal assertion that its second argument has no dot; that assertion is modelled only where the source passes a loop name, in `Reordering.RetargetAsWritten`.
- Reordering.Reorder: when the fuse level refers to no loop and the list is empty, the source reads past the end of the list; the model reports `InternalError` instead.
- DimTypes.MarkDims: the source writes the new type into a loop before a later loop fails a check; since a failed directive throws, the model keeps no partial state.
- Splitting.SplitDim: the source inserts the two new loops (Halide/src/Func.cpp:972-986) before the tail-strategy checks can fail; the model keeps no partial state.
- Fusing.Fuse: the source erases the outer loop (Halide/src/Func.cpp:1134-1141) before it looks up the inner loop and before the internal assertion; the model keeps no partial state.
- Renaming.Rename: the source renames the loop (Halide/src/Func.cpp:1393-1400) before the history walk can refuse the rename; the model keeps no partial state.
- Removing.RemoveDimension: the source erases the loop (Halide/src/Func.cpp:1285-1291) before the history walk can refuse the removal; the model keeps no partial state.
- The stage index of a fuse level, the `Func` it belongs to and its locking are not modelled; the level is the variable only.

## Findings

| source | as written | input that shows it | evidently intended | confidence | as-written member | corrected member |
|---|---|---|---|---|---|---|
| Halide/src/Func.cpp:1558-1605 | a variable named twice resolves twice to the same position; the sort-and-overwrite then copies one loop twice and loses another | loops `[a, b]`, `reorder(b, a, b)` gives `[b, b]` | refuse the call, or otherwise keep the result a permutation of the loops | not executed | Reordering.DuplicateReorderLosesLoop | Reordering.DuplicateReorderRefused |
| Halide/src/Func.cpp:1614-1639 | the qualified loop name at the level's position is compared with the level's unqualified variable name, and `var_name_match` gets its arguments in the wrong order, so a qualified loop trips the internal assertion | loops `[x.xi, x.xo, y]`, fuse level `xi`, `reorder(y, xo)` leaves `x.xi` in place and fails | keep the level when the loop at its position still answers to it, else find the variable that loop answers to | not executed | Reordering.RetargetAsWrittenFailsOnQualifiedLevel | Reordering.RetargetFindsMovedLoop |

=== FILE: dimtype.dfy ===
/** `Stage::set_dim_type` and the two flags that open its race gate,
    `allow_race_conditions` and `atomic` (Halide/src/Func.cpp). Marking a loop
    parallel, vectorized or GPU-mapped lets iterations run out of order; for
    a reduction variable that is not pure this may race unless the user has
    accepted it. */
module DimTypes {
  import opened Wrappers
  import opened Names
  import opened Schedule

  /** The gate lets an impure reduction loop go parallel: races were allowed
      explicitly, or the update was declared atomic and its associativity is
      either overridden or proved. */
  predicate RaceAllowed(s: Stage, prover: AssocResult) {
    s.allowRace || (s.atomic && (s.overrideAssoc || prover.associative))
  }

  /** Marking `d` as `t` through `v` has to pass the race gate. */
  predicate RaceTriggered(d: Dim, v: VarRef, t: ForType) {
    NameMatch(d.name, v.name) && !IsPure(d) && v.isRVar && IsParallel(t)
  }

  /** `d` is another loop that is already vectorized while `v` is to be. */
  predicate VectorClash(d: Dim, v: VarRef, t: ForType) {
    !NameMatch(d.name, v.name) && t == Vectorized && d.forType == Vectorized
  }

  /** The loop type of `d` after marking `v` as `t`. */
  function Marked(d: Dim, v: VarRef, t: ForType): Dim {
    if NameMatch(d.name, v.name) then d.(forType := t) else d
  }

  /** One iteration of the loop over the dimensions. */
  function MarkDim(d: Dim, v: VarRef, t: ForType, s: Stage, prover: AssocResult): (r: Result<Dim, Error>)
  {
    if NameMatch(d.name, v.name) then
      if RaceTriggered(d, v, t) && !s.allowRace && s.atomic && !s.overrideAssoc && !prover.associative then
        Err(AtomicNotAssociative)
      else if RaceTriggered(d, v, t) && !(s.allowRace || s.atomic) then
        Err(RaceCondition(v.name))
      else
        Ok(d.(forType := t))
    else if VectorClash(d, v, t) then
      Err(MultipleVectorization(d.name))
    else
      Ok(d)
  }

  /** The loop over the dimensions, innermost first, stopping at the first
      failure. */
  function MarkDims(dims: seq<Dim>, v: VarRef, t: ForType, s: Stage, prover: AssocResult): (r: Result<seq<Dim>, Error>)
    ensures r.Ok? <==>
              && (forall i :: 0 <= i < |dims| ==> !VectorClash(dims[i], v, t))
              && ((exists i :: 0 <= i < |dims| && RaceTriggered(dims[i], v, t)) ==> RaceAllowed(s, prover))
    ensures r.Ok? ==> |r.value| == |dims|
    ensures r.Ok? ==> forall i :: 0 <= i < |dims| ==> r.value[i] == Marked(dims[i], v, t)
    ensures r.Err? && r.error.RaceCondition? ==>
              !s.allowRace && !s.atomic && exists i :: 0 <= i < |dims| && RaceTriggered(dims[i], v, t)
    ensures r.Err? && r.error == AtomicNotAssociative ==>
              !s.allowRace && s.atomic && !s.overrideAssoc && !prover.associative
              && exists i :: 0 <= i < |dims| && RaceTriggered(dims[i], v, t)
    ensures r.Err? && r.error.MultipleVectorization? ==>
              exists i :: 0 <= i < |dims| && VectorClash(dims[i], v, t)
    ensures r.Err? ==> r.error.RaceCondition? || r.error == AtomicNotAssociative || r.error.MultipleVectorization?
  {
    if |dims| == 0 then Ok([])
    else
      var head :- MarkDim(dims[0], v, t, s, prover);
      var rest :- MarkDims(dims[1..], v, t, s, prover);
      assert forall i :: 1 <= i < |dims| ==> dims[i] == dims[1..][i - 1];
      Ok([head] + rest)
  }

  /** `Stage::set_dim_type(var, t)`: every dimension `var` refers to gets loop
      type `t`. */
  function SetDimType(s: Stage, v: VarRef, t: ForType, prover: AssocResult): (r: Result<Stage, Error>)
    ensures r.Ok? <==>
              && Refers(s.dims, v.name)
              && (forall i :: 0 <= i < |s.dims| ==> !VectorClash(s.dims[i], v, t))
              && ((exists i :: 0 <= i < |s.dims| && RaceTriggered(s.dims[i], v, t)) ==> RaceAllowed(s, prover))
    ensures r.Ok? ==> r.value == s.(dims := r.value.dims) && |r.value.dims| == |s.dims|
    ensures r.Ok? ==> forall i :: 0 <= i < |s.dims| ==>
              r.value.dims[i] == (if NameMatch(s.dims[i].name, v.name) then s.dims[i].(forType := t) else s.dims[i])
    ensures r.Err? && r.error.RaceCondition? ==>
              !s.allowRace && !s.atomic && exists i :: 0 <= i < |s.dims| && RaceTriggered(s.dims[i], v, t)
    ensures r.Err? && r.error == AtomicNotAssociative ==>
              !s.allowRace && s.atomic && !s.overrideAssoc && !prover.associative
              && exists i :: 0 <= i < |s.dims| && RaceTriggered(s.dims[i], v, t)
    ensures r.Err? && r.error.MultipleVectorization? ==> t == Vectorized
    ensures r.Err? && r.error.DimNotFound? ==> !Refers(s.dims, v.name)
    ensures MarkDims(s.dims, v, t, s, prover).Err? ==> r == Err(MarkDims(s.dims, v, t, s, prover).error)
    ensures MarkDims(s.dims, v, t, s, prover).Ok? && !Refers(s.dims, v.name) ==> r == Err(DimNotFound(v.name))
  {
    var dims :- MarkDims(s.dims, v, t, s, prover);
    if FindFirst(s.dims, v.name).None? then Err(DimNotFound(v.name))
    else Ok(s.(dims := dims))
  }

  /** `Stage::allow_race_conditions()`. */
  function AllowRaceConditions(s: Stage): (r: Stage)
    ensures forall prover: AssocResult :: RaceAllowed(r, prover)
    ensures r.atomic == s.atomic && r.overrideAssoc == s.overrideAssoc && r.isInit == s.isInit
    ensures r.dims == s.dims && r.splits == s.splits && r.fuseLevel == s.fuseLevel
  {
    s.(allowRace := true)
  }

  /** `Stage::atomic(override_associativity_test)`. */
  function Atomic(s: Stage, overrideAssociativityTest: bool): (r: Stage)
    ensures forall prover: AssocResult ::
              RaceAllowed(r, prover) <==> s.allowRace || overrideAssociativityTest || prover.associative
    ensures r.atomic && r.overrideAssoc == overrideAssociativityTest && r.allowRace == s.allowRace
    ensures r.dims == s.dims && r.splits == s.splits && r.fuseLevel == s.fuseLevel && r.isInit == s.isInit
  {
    s.(atomic := true, overrideAssoc := overrideAssociativityTest)
  }

  /** After `allow_race_conditions()` no loop type is refused for racing. */
  lemma AllowRaceConditionsOpensGate(s: Stage, v: VarRef, t: ForType, prover: AssocResult)
    ensures var r := SetDimType(AllowRaceConditions(s), v, t, prover);
            r.Err? ==> !r.error.RaceCondition? && r.error != AtomicNotAssociative
  {
  }

  /** After `atomic()` a racing loop type is refused only when the prover
      cannot show the update associative and the test is not overridden. */
  lemma AtomicOpensGateWhenAssociative(s: Stage, ov: bool, v: VarRef, t: ForType, prover: AssocResult)
    ensures var r := SetDimType(Atomic(s, ov), v, t, prover);
            r.Err? ==> !r.error.RaceCondition?
                       && (r.error == AtomicNotAssociative ==> !ov && !prover.associative && !s.allowRace)
  {
  }

  /** The loop over the dimensions leaves already marked dimensions as they
      are. */
  lemma {:induction false} MarkDimsIdempotent(dims: seq<Dim>, v: VarRef, t: ForType, s: Stage, prover: AssocResult)
    requires MarkDims(dims, v, t, s, prover).Ok?
    ensures MarkDims(MarkDims(dims, v, t, s, prover).value, v, t, s, prover) == MarkDims(dims, v, t, s, prover)
  {
    if |dims| > 0 {
      var marked := MarkDims(dims, v, t, s, prover).value;
      MarkDimsIdempotent(dims[1..], v, t, s, prover);
      assert marked[0] == Marked(dims[0], v, t);
      assert MarkDim(marked[0], v, t, s, prover) == Ok(marked[0]);
      assert marked[1..] == MarkDims(dims[1..], v, t, s, prover).value;
    }
  }

  /** Marking the same variable with the same loop type twice changes nothing
      the second time. */
  lemma SetDimTypeIdempotent(s: Stage, v: VarRef, t: ForType, prover: AssocResult)
    requires SetDimType(s, v, t, prover).Ok?
    ensures SetDimType(SetDimType(s, v, t, prover).value, v, t, prover) == SetDimType(s, v, t, prover)
  {
    var s1 := SetDimType(s, v, t, prover).value;
    MarkDimsIdempotent(s.dims, v, t, s, prover);
    assert MarkDims(s1.dims, v, t, s1, prover) == MarkDims(s1.dims, v, t, s, prover) by {
      MarkDimsSameFlags(s1.dims, v, t, s, s1, prover);
    }
    var j := FindFirst(s.dims, v.name).value;
    assert s1.dims[j] == Marked(s.dims[j], v, t);
    assert FindFirst(s1.dims, v.name).Some?;
  }

  /** The loop reads only the flags of the stage. */
  lemma {:induction false} MarkDimsSameFlags(dims: seq<Dim>, v: VarRef, t: ForType, s: Stage, s': Stage, prover: AssocResult)
    requires s.allowRace == s'.allowRace && s.atomic == s'.atomic && s.overrideAssoc == s'.overrideAssoc
    ensures MarkDims(dims, v, t, s, prover) == MarkDims(dims, v, t, s', prover)
  {
    if |dims| > 0 {
      MarkDimsSameFlags(dims[1..], v, t, s, s', prover);
    }
  }

  /** An update `f(x) += g(r)` over one impure reduction variable `r` cannot
      be parallelized over `r` as it stands, but can once it is declared
      atomic and `+` is proved associative. */
  lemma RaceGateOnImpureReduction()
    ensures var s := Stage([Dim("r", Serial, ImpureRVar), Dim("x", Serial, PureVar)], [],
                           false, false, false, false, None);
            var r := VarRef("r", true);
            && SetDimType(s, r, Parallel, AssocResult(true, true)) == Err(RaceCondition("r"))
            && SetDimType(Atomic(s, false), r, Parallel, AssocResult(true, true)).Ok?
            && SetDimType(Atomic(s, false), r, Parallel, AssocResult(false, false)) == Err(AtomicNotAssociative)
  {
    var s := Stage([Dim("r", Serial, ImpureRVar), Dim("x", Serial, PureVar)], [],
                   false, false, false, false, None);
    assert NameMatch(s.dims[0].name, "r");
    assert !NameMatch(s.dims[1].name, "r");
  }
}

=== FILE: fuse.dfy ===
/** `Stage::fuse` (Halide/src/Func.cpp): an inner and an outer loop become a
    single loop over their product. */
module Fusing {
  import opened Wrappers
  import opened Names
  import opened Seqs
  import opened Schedule
  import Splitting

  /** The kind of the loop produced by fusing an inner loop of kind `inner`
      with an outer loop of kind `outer`: a fused reduction loop is pure only
      when both loops were. */
  function FusedKind(inner: DimKind, outer: DimKind): DimKind {
    if inner == PureVar then PureVar
    else if inner == PureRVar && outer == PureRVar then PureRVar
    else ImpureRVar
  }

  /** The two loops are both reduction loops or both pure variables. */
  predicate Compatible(inner: Dim, outer: Dim) {
    (IsRVar(inner) && IsRVar(outer)) || (!IsRVar(inner) && outer.kind == PureVar)
  }

  /** Fusing two compatible loops neither turns a reduction loop into a pure
      variable nor makes an impure reduction loop pure. */
  lemma FusedKindKeepsPurity(inner: Dim, outer: Dim)
    requires Compatible(inner, outer)
    ensures var k := inner.(kind := FusedKind(inner.kind, outer.kind));
            && IsRVar(k) == IsRVar(inner)
            && (IsPure(k) <==> IsPure(inner) && IsPure(outer))
  {
  }

  /** `outer` refers to a loop, and `inner` to one of the loops left once
      that loop is taken out. */
  predicate Located(s: Stage, inner: VarRef, outer: VarRef) {
    && Refers(s.dims, outer.name)
    && Refers(RemoveAt(s.dims, FindFirst(s.dims, outer.name).value), inner.name)
  }

  /** The two loops `fuse` finds are compatible. */
  predicate Fusable(s: Stage, inner: VarRef, outer: VarRef)
    requires Located(s, inner, outer)
  {
    var o := FindFirst(s.dims, outer.name).value;
    var rest := RemoveAt(s.dims, o);
    Compatible(rest[FindFirst(rest, inner.name).value], s.dims[o])
  }

  /** `Stage::fuse(inner, outer, fused)`: the first loop `outer` refers to is
      removed, the first loop `inner` then refers to is renamed
      `inner_name.fused`, and the fuse is appended to the history. */
  function Fuse(s: Stage, inner: VarRef, outer: VarRef, fused: VarRef): (r: Result<Stage, Error>)
    ensures inner.isRVar != outer.isRVar ==> r == Err(VarRVarMismatch(outer.name))
    ensures inner.isRVar == outer.isRVar && inner.isRVar != fused.isRVar ==> r == Err(VarRVarMismatch(fused.name))
    ensures inner.isRVar == outer.isRVar == fused.isRVar && !Refers(s.dims, outer.name) ==>
              r == Err(DimNotFound(outer.name))
    ensures inner.isRVar == outer.isRVar == fused.isRVar && Refers(s.dims, outer.name) ==>
              var rest := RemoveAt(s.dims, FindFirst(s.dims, outer.name).value);
              !Refers(rest, inner.name) ==> r == Err(DimNotFound(inner.name))
    ensures r.Ok? ==> inner.isRVar == outer.isRVar == fused.isRVar && Refers(s.dims, outer.name)
    ensures r.Ok? <==> inner.isRVar == outer.isRVar == fused.isRVar && Located(s, inner, outer) && Fusable(s, inner, outer)
    ensures inner.isRVar == outer.isRVar == fused.isRVar && Located(s, inner, outer) && r.Err? ==> r == Err(InternalError)
    ensures r.Ok? ==>
              var o := FindFirst(s.dims, outer.name).value;
              var rest := RemoveAt(s.dims, o);
              && Refers(rest, inner.name)
              && var i := FindFirst(rest, inner.name).value;
                 && Compatible(rest[i], s.dims[o])
                 && |r.value.dims| == |s.dims| - 1
                 && RemoveAt(r.value.dims, i) == RemoveAt(rest, i)
                 && r.value.dims[i].name == rest[i].name + "." + fused.name
                 && NameMatch(r.value.dims[i].name, fused.name)
                 && r.value.dims[i].forType == rest[i].forType
                 && IsRVar(r.value.dims[i]) == IsRVar(rest[i])
                 && (IsPure(r.value.dims[i]) <==> IsPure(rest[i]) && IsPure(s.dims[o]))
                 && r.value.splits == s.splits + [Split(r.value.dims[i].name, s.dims[o].name, rest[i].name,
                                                         0, true, RoundUp, FuseVars)]
    ensures r.Ok? ==> r.value == s.(dims := r.value.dims, splits := r.value.splits)
  {
    if inner.isRVar != outer.isRVar then Err(VarRVarMismatch(outer.name))
    else if inner.isRVar != fused.isRVar then Err(VarRVarMismatch(fused.name))
    else
      match FindFirst(s.dims, outer.name)
      case None => Err(DimNotFound(outer.name))
      case Some(o) =>
        var od := s.dims[o];
        var rest := RemoveAt(s.dims, o);
        match FindFirst(rest, inner.name)
        case None => Err(DimNotFound(inner.name))
        case Some(i) =>
          var id := rest[i];
          if !Compatible(id, od) then Err(InternalError)
          else
            var fusedName := id.name + "." + fused.name;
            QualifiedNameMatches(id.name, fused.name);
            FusedKindKeepsPurity(id, od);
            var dims := rest[i := id.(name := fusedName, kind := FusedKind(id.kind, od.kind))];
            assert RemoveAt(dims, i) == RemoveAt(rest, i);
            Ok(s.(dims := dims,
                  splits := s.splits + [Split(fusedName, od.name, id.name, 0, true, RoundUp, FuseVars)]))
  }

  /** Fusing the two loops a split has just produced, inner into outer, gives
      back the loop that was split, under the name `old.inner.fused`: its
      position, loop type and kind are those of the original loop. */
  lemma {:induction false} SplitThenFuse(s: Stage, x: string, xo: string, xi: string, f: string, factor: Factor,
                                         exact: bool, tail: TailStrategy, proveGe: (int, int) -> bool, isRVar: bool)
    requires Unqualified(xo) && Unqualified(xi) && xo != xi
    requires Splitting.SplitDim(s, x, xo, xi, factor, exact, tail, proveGe).Ok?
    ensures var s1 := Splitting.SplitDim(s, x, xo, xi, factor, exact, tail, proveGe).value;
            var i := FindFirst(s.dims, x).value;
            var d := s.dims[i];
            var r := Fuse(s1, VarRef(xi, isRVar), VarRef(xo, isRVar), VarRef(f, isRVar));
            && r.Ok?
            && r.value.dims == s.dims[i := d.(name := d.name + "." + xi + "." + f)]
            && r.value.splits == s1.splits + [Split(d.name + "." + xi + "." + f, d.name + "." + xo,
                                                    d.name + "." + xi, 0, true, RoundUp, FuseVars)]
  {
    var s1 := Splitting.SplitDim(s, x, xo, xi, factor, exact, tail, proveGe).value;
    var i := FindFirst(s.dims, x).value;
    // The split succeeded, so no loop before `i` answers to the new names.
    assert !Splitting.Collides(s.dims, x, xo) && !Splitting.Collides(s.dims, x, xi);
    forall j | 0 <= j < i
      ensures !NameMatch(s.dims[j].name, xo) && !NameMatch(s.dims[j].name, xi)
    {
    }
    FuseOfSplitAt(s1, s.dims, i, xi, xo, f, isRVar);
  }

  /** Fuse applied to the loops of `SplitAt`. */
  lemma FuseOfSplitAt(s1: Stage, dims: seq<Dim>, i: nat, xi: string, xo: string, f: string, isRVar: bool)
    requires i < |dims| && Unqualified(xo) && Unqualified(xi) && xo != xi
    requires forall j :: 0 <= j < i ==> !NameMatch(dims[j].name, xo) && !NameMatch(dims[j].name, xi)
    requires s1.dims == Splitting.SplitAt(dims, i, xi, xo)
    ensures var d := dims[i];
            Fuse(s1, VarRef(xi, isRVar), VarRef(xo, isRVar), VarRef(f, isRVar))
              == Ok(s1.(dims := dims[i := d.(name := d.name + "." + xi + "." + f)],
                        splits := s1.splits + [Split(d.name + "." + xi + "." + f, d.name + "." + xo,
                                                     d.name + "." + xi, 0, true, RoundUp, FuseVars)]))
  {
    SplitLoopsFoundAgain(dims, i, xi, xo);
    var d := dims[i];
    var od := s1.dims[i + 1];
    var rest := RemoveAt(s1.dims, i + 1);
    var id := rest[i];
    assert id == d.(name := d.name + "." + xi);
    assert od.name == d.name + "." + xo && od.kind == d.kind;
    assert Compatible(id, od);
    assert rest[i := id.(name := id.name + "." + f, kind := FusedKind(id.kind, od.kind))]
        == dims[i := d.(name := d.name + "." + xi + "." + f)];
  }

  /** After `SplitAt`, looking the outer name up finds the new outer loop,
      and after erasing it, looking the inner name up finds the new inner
      loop, provided no earlier loop answers to either name. */
  lemma SplitLoopsFoundAgain(dims: seq<Dim>, i: nat, xi: string, xo: string)
    requires i < |dims| && Unqualified(xo) && Unqualified(xi) && xo != xi
    requires forall j :: 0 <= j < i ==> !NameMatch(dims[j].name, xo) && !NameMatch(dims[j].name, xi)
    ensures var s1 := Splitting.SplitAt(dims, i, xi, xo);
            && FindFirst(s1, xo) == Some(i + 1)
            && RemoveAt(s1, i + 1) == dims[i := dims[i].(name := dims[i].name + "." + xi)]
            && FindFirst(RemoveAt(s1, i + 1), xi) == Some(i)
  {
    var s1 := Splitting.SplitAt(dims, i, xi, xo);
    forall j | 0 <= j < i
      ensures !NameMatch(s1[j].name, xo) && !NameMatch(s1[j].name, xi)
    {
      assert s1[j] == dims[j];
    }
    QualifiedMatchesOnlyItsSuffix(dims[i].name, xi, xo);
    FirstMatchAt(s1, xo, i + 1);
    var rest := RemoveAt(s1, i + 1);
    assert rest == dims[i := dims[i].(name := dims[i].name + "." + xi)];
    FirstMatchAt(rest, xi, i);
  }
}

=== FILE: names.dfy ===
/** Name resolution of loop dimensions (Halide/src/Func.cpp, var_name_match).
    Directives name a dimension by its unqualified name; the dimension list
    stores names qualified by every split, fuse and rename applied so far
    ("x.xo.xoo"), so a name refers to every dimension whose qualified name is
    that name or ends in "." followed by it. */
module Names {

  predicate EndsWith(s: string, suffix: string) {
    |suffix| <= |s| && s[|s| - |suffix|..] == suffix
  }

  /** A name without any qualifying dot: the only kind of name that
      `var_name_match` accepts as its second argument. */
  predicate Unqualified(v: string) {
    forall k :: 0 <= k < |v| ==> v[k] != '.'
  }

  /** `candidate` is referred to by the unqualified name `v`. */
  predicate NameMatch(candidate: string, v: string) {
    candidate == v || EndsWith(candidate, "." + v)
  }

  /** Qualifying a name with a suffix makes it answer to that suffix: this is
      what lets later directives refer to `old.inner` as `inner`. */
  lemma QualifiedNameMatches(prefix: string, v: string)
    ensures NameMatch(prefix + "." + v, v)
  {
    var q := prefix + "." + v;
    assert q[|q| - |"." + v|..] == "." + v;
  }

  /** Qualifying a name keeps every suffix it already answered to. */
  lemma QualifyingKeepsMatch(prefix: string, candidate: string, v: string)
    requires NameMatch(candidate, v)
    ensures NameMatch(prefix + "." + candidate, v)
  {
    var q := prefix + "." + candidate;
    if candidate == v {
      QualifiedNameMatches(prefix, v);
    } else {
      assert candidate[|candidate| - |"." + v|..] == "." + v;
      assert q[|q| - |"." + v|..] == candidate[|candidate| - |"." + v|..];
    }
  }

  /** A name qualified by an unqualified suffix `a` answers to no other
      unqualified name `b`: the suffix after the last dot is unique. */
  lemma QualifiedMatchesOnlyItsSuffix(prefix: string, a: string, b: string)
    requires Unqualified(a) && Unqualified(b) && a != b
    ensures !NameMatch(prefix + "." + a, b)
  {
    var q := prefix + "." + a;
    var sb := "." + b;
    if |q| == |b| {
      // q carries a dot where b has none
      assert q[|prefix|] != b[|prefix|];
    }
    if |sb| <= |q| {
      var off := |q| - |sb|;
      var tail := q[off..];
      if |b| < |a| {
        // the dot in front of b lands inside a
        assert tail[0] == a[off - |prefix| - 1];
        assert tail[0] != sb[0];
      } else if |b| > |a| {
        // the dot in front of a lands inside b
        assert tail[|prefix| - off] == '.';
        assert sb[|prefix| - off] == b[|prefix| - off - 1];
        assert tail[|prefix| - off] != sb[|prefix| - off];
      } else {
        var k :| 0 <= k < |a| && a[k] != b[k];
        assert tail[k + 1] == a[k];
        assert tail[k + 1] != sb[k + 1];
      }
    }
  }

  /** An unqualified name answers only to itself. */
  lemma UnqualifiedMatchesOnlyItself(candidate: string, v: string)
    requires Unqualified(candidate)
    ensures NameMatch(candidate, v) <==> candidate == v
  {
    if EndsWith(candidate, "." + v) {
      DotBeforeSuffix(candidate, v);
    }
  }

  /** A name ending in `"." + v` carries that dot just before `v`. */
  lemma DotBeforeSuffix(candidate: string, v: string)
    requires EndsWith(candidate, "." + v)
    ensures candidate[|candidate| - |v| - 1] == '.'
  {
    var off := |candidate| - |"." + v|;
    assert candidate[off..][0] == '.';
  }
}

=== FILE: remove.dfy ===
/** `remove_dimension` (Halide/src/Func.cpp): deleting a loop from a stage
    together with the history entries that produced it, as `rfactor` does
    for the reduction variables it lifts out of the intermediate. */
module Removing {
  import opened Wrappers
  import opened Seqs
  import opened Schedule

  /** Index of the first loop whose qualified name is exactly `v`. */
  function FindExact(dims: seq<Dim>, v: string): (r: Option<nat>)
    ensures r.Some? ==> r.value < |dims| && dims[r.value].name == v
    ensures r.Some? ==> forall j :: 0 <= j < r.value ==> dims[j].name != v
    ensures r.None? <==> forall j :: 0 <= j < |dims| ==> dims[j].name != v
  {
    if |dims| == 0 then None
    else if dims[0].name == v then Some(0)
    else
      match FindExact(dims[1..], v)
      case None => None
      case Some(k) => Some(k + 1)
  }

  /** History entry `e` already consumed the loop `v`: fused it into another
      loop, or split, renamed or purified it. Removing `v` is then refused. */
  predicate Offends(e: Split, v: string) {
    if e.kind == FuseVars then e.inner == v || e.outer == v else e.oldVar == v
  }

  predicate LastOffendingAt(h: seq<Split>, v: string, k: int) {
    0 <= k < |h| && Offends(h[k], v) && forall j :: k < j < |h| ==> !Offends(h[j], v)
  }

  function OffenseError(e: Split, v: string): Error {
    if e.kind == FuseVars then AlreadyFused(v) else AlreadyTransformed(v)
  }

  /** Entry `e` produced one of the loops being removed, so it goes too. */
  predicate Drops(e: Split, removed: set<string>) {
    match e.kind
    case FuseVars => e.oldVar in removed
    case SplitVar => e.inner in removed || e.outer in removed
    case _ => e.outer in removed
  }

  /** The loops a dropped entry was made from are removed as well. */
  function Sources(e: Split): set<string> {
    if e.kind == FuseVars then {e.outer, e.inner} else {e.oldVar}
  }

  /** The loops made from the entries of `h` from `k` on that `dropped`
      marks: each dropped entry's sources join the removed set. */
  function SourcesFrom(h: seq<Split>, dropped: seq<bool>, k: nat): set<string>
    requires |dropped| == |h| && k <= |h|
    decreases |h| - k
  {
    if k == |h| then {}
    else (if dropped[k] then Sources(h[k]) else {}) + SourcesFrom(h, dropped, k + 1)
  }

  /** The rule by which `remove_dimension` drops history entries: an entry
      is dropped exactly when it produced a loop in the removed set as it
      stands once every later entry has been considered, that is, `removed`
      together with the sources of the later dropped entries. */
  predicate DropRule(h: seq<Split>, dropped: seq<bool>, removed: set<string>) {
    && |dropped| == |h|
    && forall k :: 0 <= k < |h| ==> DroppedAt(h, dropped, removed, k)
  }

  /** The drop rule at entry `k`. */
  predicate DroppedAt(h: seq<Split>, dropped: seq<bool>, removed: set<string>, k: nat)
    requires |dropped| == |h| && k < |h|
  {
    dropped[k] <==> Drops(h[k], removed + SourcesFrom(h, dropped, k + 1))
  }

  /** The entries of `h` that `dropped` does not mark, in order. */
  function Keep(h: seq<Split>, dropped: seq<bool>): (r: seq<Split>)
    requires |dropped| == |h|
    ensures IsSubsequence(r, h)
  {
    if |h| == 0 then []
    else
      var last := |h| - 1;
      var kept := Keep(h[..last], dropped[..last]);
      SubsequenceAppend(kept, h[..last], h[last]);
      assert h == h[..last] + [h[last]];
      if dropped[last] then kept else kept + [h[last]]
  }

  /** Nothing marked, nothing lost. */
  lemma {:induction false} KeepAll(h: seq<Split>, dropped: seq<bool>)
    requires |dropped| == |h| && forall k :: 0 <= k < |h| ==> !dropped[k]
    ensures Keep(h, dropped) == h
    decreases |h|
  {
    if |h| > 0 {
      var last := |h| - 1;
      assert forall k :: 0 <= k < last ==> dropped[..last][k] == dropped[k];
      KeepAll(h[..last], dropped[..last]);
      assert h == h[..last] + [h[last]];
    }
  }

  /** Every entry that `dropped` does not mark is kept. */
  lemma {:induction false} KeptEntries(h: seq<Split>, dropped: seq<bool>, k: nat)
    requires |dropped| == |h| && k < |h| && !dropped[k]
    ensures h[k] in Keep(h, dropped)
    decreases |h|
  {
    var last := |h| - 1;
    if k < last {
      KeptEntries(h[..last], dropped[..last], k);
    }
  }

  /** The outcome of the walk: which entries are dropped, and the final set
      of removed loop names. */
  datatype Walk = Walk(dropped: seq<bool>, removed: set<string>)

  /** The backward walk of `remove_dimension` over the history `h`, with
      the set of removed loop names accumulated from the later entries. */
  function RemoveWalk(h: seq<Split>, removed: set<string>, v: string): (r: Result<Walk, Error>)
    ensures r.Err? <==> exists k :: 0 <= k < |h| && Offends(h[k], v)
    ensures r.Err? ==> exists k :: LastOffendingAt(h, v, k) && r.error == OffenseError(h[k], v)
    ensures r.Ok? ==> DropRule(h, r.value.dropped, removed)
    ensures r.Ok? ==> r.value.removed == removed + SourcesFrom(h, r.value.dropped, 0)
  {
    if |h| == 0 then Ok(Walk([], removed))
    else
      var last := |h| - 1;
      var e := h[last];
      var prefix := h[..last];
      if Offends(e, v) then
        assert LastOffendingAt(h, v, last);
        Err(OffenseError(e, v))
      else
        var drop := Drops(e, removed);
        var removed' := if drop then removed + Sources(e) else removed;
        OffendingPrefix(h, prefix, v);
        match RemoveWalk(prefix, removed', v)
        case Err(x) => Err(x)
        case Ok(w) =>
          WalkStep(h, removed, w.dropped);
          Ok(Walk(w.dropped + [drop], w.removed))
  }

  /** A last entry that does not offend leaves the offending entries, and
      the latest of them, to the prefix. */
  lemma OffendingPrefix(h: seq<Split>, prefix: seq<Split>, v: string)
    requires |h| > 0 && prefix == h[..|h| - 1] && !Offends(h[|h| - 1], v)
    ensures (exists k :: 0 <= k < |h| && Offends(h[k], v)) <==> (exists k :: 0 <= k < |prefix| && Offends(prefix[k], v))
    ensures forall k :: LastOffendingAt(h, v, k) <==> LastOffendingAt(prefix, v, k)
  {
    assert forall j :: 0 <= j < |prefix| ==> h[j] == prefix[j];
  }

  /** The drops of the prefix, decided against the set the last entry
      leaves, extend to the drops of the whole history. */
  lemma WalkStep(h: seq<Split>, removed: set<string>, d: seq<bool>)
    requires |h| > 0
    requires var e := h[|h| - 1];
             DropRule(h[..|h| - 1], d, if Drops(e, removed) then removed + Sources(e) else removed)
    ensures var e := h[|h| - 1];
            var removed' := if Drops(e, removed) then removed + Sources(e) else removed;
            && DropRule(h, d + [Drops(e, removed)], removed)
            && removed' + SourcesFrom(h[..|h| - 1], d, 0) == removed + SourcesFrom(h, d + [Drops(e, removed)], 0)
  {
    var last := |h| - 1;
    var e := h[last];
    var drop := Drops(e, removed);
    var removed' := if drop then removed + Sources(e) else removed;
    var prefix := h[..last];
    var d' := d + [drop];
    forall k | 0 <= k <= last
      ensures removed' + SourcesFrom(prefix, d, k) == removed + SourcesFrom(h, d', k)
    {
      SourcesFromAppend(h, d, drop, k);
    }
    forall k | 0 <= k < |h|
      ensures DroppedAt(h, d', removed, k)
    {
      if k < last {
        assert d'[k] == d[k] && h[k] == prefix[k];
        assert DroppedAt(prefix, d, removed', k);
      }
    }
  }

  lemma {:induction false} SourcesFromAppend(h: seq<Split>, d: seq<bool>, drop: bool, k: nat)
    requires |h| > 0 && |d| == |h| - 1 && k <= |d|
    ensures SourcesFrom(h, d + [drop], k)
            == SourcesFrom(h[..|h| - 1], d, k) + (if drop then Sources(h[|h| - 1]) else {})
    decreases |d| - k
  {
    if k < |d| {
      SourcesFromAppend(h, d, drop, k + 1);
      assert (d + [drop])[k] == d[k] && h[..|h| - 1][k] == h[k];
    }
  }

  /** The drop rule has exactly one solution: the walk is determined by it. */
  lemma DropRuleUnique(h: seq<Split>, d1: seq<bool>, d2: seq<bool>, removed: set<string>)
    requires DropRule(h, d1, removed) && DropRule(h, d2, removed)
    ensures d1 == d2
  {
    AgreeFrom(h, d1, d2, removed, 0);
  }

  lemma {:induction false} AgreeFrom(h: seq<Split>, d1: seq<bool>, d2: seq<bool>, removed: set<string>, k: nat)
    requires DropRule(h, d1, removed) && DropRule(h, d2, removed) && k <= |h|
    ensures forall j :: k <= j < |h| ==> d1[j] == d2[j]
    ensures SourcesFrom(h, d1, k) == SourcesFrom(h, d2, k)
    decreases |h| - k
  {
    if k < |h| {
      AgreeFrom(h, d1, d2, removed, k + 1);
      assert DroppedAt(h, d1, removed, k) && DroppedAt(h, d2, removed, k);
    }
  }

  /** An entry that produced one of the sources of the dropped entries
      from `k` on produced a source of one of those entries. */
  lemma {:induction false} DropsWitness(h: seq<Split>, d: seq<bool>, k: nat, e: Split)
    requires |d| == |h| && k <= |h|
    ensures Drops(e, SourcesFrom(h, d, k)) ==> exists j :: k <= j < |h| && Drops(e, Sources(h[j]))
    decreases |h| - k
  {
    if k < |h| {
      DropsWitness(h, d, k + 1, e);
    }
  }

  /** Sources of dropped entries only accumulate towards the front. */
  lemma {:induction false} SourcesFromGrows(h: seq<Split>, d: seq<bool>, j: nat, k: nat)
    requires |d| == |h| && j <= k <= |h|
    ensures SourcesFrom(h, d, k) <= SourcesFrom(h, d, j)
    decreases k - j
  {
    if j < k {
      SourcesFromGrows(h, d, j + 1, k);
    }
  }

  /** Against the final removed set: every dropped entry produced a removed
      loop, so an entry that produced none is kept. */
  lemma DroppedAgainstFinal(h: seq<Split>, d: seq<bool>, removed: set<string>, k: nat)
    requires DropRule(h, d, removed) && k < |h|
    ensures d[k] ==> Drops(h[k], removed + SourcesFrom(h, d, 0))
    ensures !Drops(h[k], removed + SourcesFrom(h, d, 0)) ==> !d[k]
  {
    SourcesFromGrows(h, d, 0, k + 1);
    assert DroppedAt(h, d, removed, k);
  }

  /** A history in which no entry produced a loop in `removed` loses
      nothing. */
  lemma {:induction false} NothingDropped(h: seq<Split>, d: seq<bool>, removed: set<string>, k: nat)
    requires DropRule(h, d, removed) && k <= |h|
    requires forall j :: 0 <= j < |h| ==> !Drops(h[j], removed)
    ensures forall j :: k <= j < |h| ==> !d[j]
    ensures SourcesFrom(h, d, k) == {}
    decreases |h| - k
  {
    if k < |h| {
      NothingDropped(h, d, removed, k + 1);
      assert DroppedAt(h, d, removed, k);
      assert removed + SourcesFrom(h, d, k + 1) == removed;
    }
  }

  /** An entry that did not produce `removed` loops, and from whose
      results no later entry was made, survives the walk. */
  lemma UnrelatedKept(h: seq<Split>, d: seq<bool>, removed: set<string>, k: nat)
    requires DropRule(h, d, removed) && k < |h|
    requires !Drops(h[k], removed)
    requires forall j :: k < j < |h| ==> !Drops(h[k], Sources(h[j]))
    ensures !d[k]
  {
    DropsWitness(h, d, k + 1, h[k]);
    assert DroppedAt(h, d, removed, k);
  }

  /** `remove_dimension(var)`: the first loop named exactly `var` is erased,
      and so is every history entry that, walking back from the latest,
      produced a loop already removed; a loop that the history shows was
      already fused, split or renamed cannot be removed. */
  function RemoveDimension(s: Stage, v: string): (r: Result<Stage, Error>)
    ensures FindExact(s.dims, v).None? ==> r == Err(DimNotFound(v))
    ensures FindExact(s.dims, v).Some? ==>
              (r.Err? <==> exists k :: 0 <= k < |s.splits| && Offends(s.splits[k], v))
    ensures r.Err? && FindExact(s.dims, v).Some? ==>
              exists k :: LastOffendingAt(s.splits, v, k) && r.error == OffenseError(s.splits[k], v)
    ensures r.Ok? ==>
              var i := FindExact(s.dims, v).value;
              && r.value.dims == RemoveAt(s.dims, i)
              && multiset(r.value.dims) + multiset{s.dims[i]} == multiset(s.dims)
              && IsSubsequence(r.value.splits, s.splits)
    ensures r.Ok? ==> exists d :: DropRule(s.splits, d, {v}) && r.value.splits == Keep(s.splits, d)
    ensures r.Ok? && (forall k :: 0 <= k < |s.splits| ==> !Drops(s.splits[k], {v})) ==> r.value.splits == s.splits
    ensures r.Ok? ==> r.value == s.(dims := r.value.dims, splits := r.value.splits)
  {
    match FindExact(s.dims, v)
    case None => Err(DimNotFound(v))
    case Some(i) =>
      var w :- RemoveWalk(s.splits, {v}, v);
      var kept := Keep(s.splits, w.dropped);
      if forall k :: 0 <= k < |s.splits| ==> !Drops(s.splits[k], {v}) then
        NothingDropped(s.splits, w.dropped, {v}, 0);
        KeepAll(s.splits, w.dropped);
        Ok(s.(dims := RemoveAt(s.dims, i), splits := kept))
      else
        Ok(s.(dims := RemoveAt(s.dims, i), splits := kept))
  }

  /** After a successful `remove_dimension`, an entry of the history that
      did not produce the removed loop, and from whose results no later
      entry was made, is still there: removing a loop leaves unrelated
      renames and splits alone. */
  lemma RemoveKeepsUnrelated(s: Stage, v: string, k: nat)
    requires RemoveDimension(s, v).Ok? && k < |s.splits|
    requires !Drops(s.splits[k], {v})
    requires forall j :: k < j < |s.splits| ==> !Drops(s.splits[k], Sources(s.splits[j]))
    ensures s.splits[k] in RemoveDimension(s, v).value.splits
  {
    var d :| DropRule(s.splits, d, {v}) && RemoveDimension(s, v).value.splits == Keep(s.splits, d);
    UnrelatedKept(s.splits, d, {v}, k);
    KeptEntries(s.splits, d, k);
  }

  /** Removing the inner loop of a split removes the split entry, and the
      loop that was split joins the removed set. */
  lemma RemoveSplitInner()
    ensures var h := [Split("r", "r.ro", "r.ri", 4, true, GuardWithIf, SplitVar)];
            RemoveWalk(h, {"r.ri"}, "r.ri") == Ok(Walk([true], {"r.ri", "r"}))
  {
    var h := [Split("r", "r.ro", "r.ri", 4, true, GuardWithIf, SplitVar)];
    assert h[..0] == [];
    assert Drops(h[0], {"r.ri"});
    assert {"r.ri"} + Sources(h[0]) == {"r.ri", "r"};
    assert RemoveWalk([], {"r.ri", "r"}, "r.ri") == Ok(Walk([], {"r.ri", "r"}));
    assert [] + [true] == [true];
  }

  /** A loop that has itself been split cannot be removed. */
  lemma RemoveOfSplitLoopRefused()
    ensures var h := [Split("r", "r.ro", "r.ri", 4, true, GuardWithIf, SplitVar)];
            var s := Stage([Dim("r", Serial, ImpureRVar), Dim("x", Serial, PureVar)], h, false, false, false, false, None);
            RemoveDimension(s, "r") == Err(AlreadyTransformed("r"))
  {
    var h := [Split("r", "r.ro", "r.ri", 4, true, GuardWithIf, SplitVar)];
    assert Offends(h[0], "r");
  }
}

=== FILE: rename.dfy ===
/** `Stage::rename` and `Stage::purify` (Halide/src/Func.cpp): giving a loop
    a new name, and turning a reduction loop into a pure variable loop. */
module Renaming {
  import opened Wrappers
  import opened Names
  import opened Schedule
  import DimTypes

  /** History entry `e` is where the loop `n` was made, in a way a rename can
      rewrite: the fuse that produced it, or the split, rename or purify of
      which it is a result. */
  predicate Defines(e: Split, n: string) {
    if e.kind == FuseVars then e.inner != n && e.outer != n && e.oldVar == n
    else e.inner == n || e.outer == n
  }

  /** History entry `e` has consumed the loop `n`: it was fused into
      another loop, or split or renamed away. */
  predicate Blocks(e: Split, n: string) {
    if e.kind == FuseVars then e.inner == n || e.outer == n
    else e.inner != n && e.outer != n && e.oldVar == n
  }

  predicate Relevant(e: Split, n: string) {
    Defines(e, n) || Blocks(e, n)
  }

  /** `k` is the latest history entry that mentions `n` as rename sees it. */
  predicate LastRelevantAt(h: seq<Split>, n: string, k: int) {
    0 <= k < |h| && Relevant(h[k], n) && forall j :: k < j < |h| ==> !Relevant(h[j], n)
  }

  /** The error `rename` reports when entry `e` has consumed the loop `n`:
      a fuse reports that the loop was fused away, anything else that it was
      renamed or split. */
  function BlockError(e: Split, n: string): Error {
    if e.kind == FuseVars then AlreadyFused(n) else AlreadyTransformed(n)
  }

  /** The loop name an entry produces. */
  predicate Produces(e: Split, n: string) {
    if e.kind == FuseVars then e.oldVar == n else e.inner == n || e.outer == n
  }

  /** Entry `e`, which defines `n`, made to define `m` instead. */
  function Redefine(e: Split, n: string, m: string): (r: Split)
    requires Defines(e, n)
    ensures Produces(r, m) && r.kind == e.kind
  {
    if e.kind == FuseVars then e.(oldVar := m)
    else if e.inner == n then e.(inner := m)
    else e.(outer := m)
  }

  /** The backward walk of `rename` over the history: the latest entry that
      mentions `n` decides. If it defines `n`, it is rewritten to define `m`;
      if it consumed `n`, the rename is refused; if there is none, the
      caller records a fresh rename. */
  function RewriteDefining(h: seq<Split>, n: string, m: string): (r: Result<Option<seq<Split>>, Error>)
    ensures r.Ok? && r.value.None? <==> forall k :: 0 <= k < |h| ==> !Relevant(h[k], n)
    ensures r.Ok? && r.value.Some? ==>
              exists k :: LastRelevantAt(h, n, k) && Defines(h[k], n) && r.value.value == h[k := Redefine(h[k], n, m)]
    ensures r.Err? <==> exists k :: LastRelevantAt(h, n, k) && Blocks(h[k], n)
    ensures r.Err? ==> r.error == AlreadyFused(n) || r.error == AlreadyTransformed(n)
    ensures r.Err? ==> exists k :: LastRelevantAt(h, n, k) && Blocks(h[k], n) && r.error == BlockError(h[k], n)
  {
    if |h| == 0 then Ok(None)
    else
      var last := |h| - 1;
      var e := h[last];
      if Defines(e, n) then
        assert LastRelevantAt(h, n, last);
        Ok(Some(h[..last] + [Redefine(e, n, m)]))
      else if Blocks(e, n) then
        assert LastRelevantAt(h, n, last);
        Err(BlockError(e, n))
      else
        var prefix := h[..last];
        LastRelevantSkipsIrrelevant(h, prefix, n);
        match RewriteDefining(prefix, n, m)
        case Ok(None) => Ok(None)
        case Ok(Some(p)) =>
          var k :| LastRelevantAt(prefix, n, k) && Defines(prefix[k], n) && p == prefix[k := Redefine(prefix[k], n, m)];
          RedefineInPrefix(h, prefix, n, m, k);
          Ok(Some(p + [e]))
        case Err(x) => Err(x)
  }

  /** Rewriting an entry of the prefix and putting the last entry back is
      rewriting that entry of the whole history. */
  lemma RedefineInPrefix(h: seq<Split>, prefix: seq<Split>, n: string, m: string, k: nat)
    requires |h| > 0 && prefix == h[..|h| - 1] && k < |prefix| && Defines(prefix[k], n)
    ensures prefix[k := Redefine(prefix[k], n, m)] + [h[|h| - 1]] == h[k := Redefine(h[k], n, m)]
  {
    assert h == prefix + [h[|h| - 1]];
  }

  /** An irrelevant last entry does not change which entry is the latest
      relevant one. */
  lemma LastRelevantSkipsIrrelevant(h: seq<Split>, prefix: seq<Split>, n: string)
    requires |h| > 0 && prefix == h[..|h| - 1] && !Relevant(h[|h| - 1], n)
    ensures forall k :: LastRelevantAt(h, n, k) <==> LastRelevantAt(prefix, n, k)
    ensures (forall k :: 0 <= k < |h| ==> !Relevant(h[k], n))
            <==> (forall k :: 0 <= k < |prefix| ==> !Relevant(prefix[k], n))
  {
    assert forall j :: 0 <= j < |prefix| ==> h[j] == prefix[j];
  }

  /** `Stage::rename(old, new)`: the first loop `old` refers to is renamed
      `old_name.new`, and the history entry that made that loop is rewritten
      to make the new name; when none did, a rename entry is appended. */
  function Rename(s: Stage, oldVar: VarRef, newVar: VarRef): (r: Result<Stage, Error>)
    ensures oldVar.isRVar != newVar.isRVar ==> r == Err(VarRVarMismatch(newVar.name))
    ensures oldVar.isRVar == newVar.isRVar && !Refers(s.dims, oldVar.name) ==> r == Err(DimNotFound(oldVar.name))
    ensures oldVar.isRVar == newVar.isRVar && Refers(s.dims, oldVar.name) ==>
              var oldName := s.dims[FindFirst(s.dims, oldVar.name).value].name;
              (r.Err? <==> exists k :: LastRelevantAt(s.splits, oldName, k) && Blocks(s.splits[k], oldName))
    ensures oldVar.isRVar == newVar.isRVar && Refers(s.dims, oldVar.name) && r.Err? ==>
              var oldName := s.dims[FindFirst(s.dims, oldVar.name).value].name;
              exists k :: LastRelevantAt(s.splits, oldName, k) && Blocks(s.splits[k], oldName)
                          && r.error == BlockError(s.splits[k], oldName)
    ensures r.Ok? ==>
              var i := FindFirst(s.dims, oldVar.name).value;
              var oldName := s.dims[i].name;
              var newName := oldName + "." + newVar.name;
              && r.value.dims == s.dims[i := s.dims[i].(name := newName)]
              && NameMatch(r.value.dims[i].name, newVar.name)
              && (exists k :: 0 <= k < |r.value.splits| && Produces(r.value.splits[k], newName))
              && ((forall k :: 0 <= k < |s.splits| ==> !Relevant(s.splits[k], oldName)) ==>
                    r.value.splits == s.splits + [Split(oldName, newName, "", 1, oldVar.isRVar, RoundUp, RenameVar)])
              && ((exists k :: 0 <= k < |s.splits| && Relevant(s.splits[k], oldName)) ==>
                    |r.value.splits| == |s.splits|
                    && exists k :: LastRelevantAt(s.splits, oldName, k)
                                   && r.value.splits == s.splits[k := Redefine(s.splits[k], oldName, newName)])
    ensures r.Ok? ==> r.value == s.(dims := r.value.dims, splits := r.value.splits)
  {
    if oldVar.isRVar != newVar.isRVar then Err(VarRVarMismatch(newVar.name))
    else
      match FindFirst(s.dims, oldVar.name)
      case None => Err(DimNotFound(oldVar.name))
      case Some(i) =>
        var oldName := s.dims[i].name;
        var newName := oldName + "." + newVar.name;
        QualifiedNameMatches(oldName, newVar.name);
        var rewritten :- RewriteDefining(s.splits, oldName, newName);
        var splits :=
          if rewritten.Some? then rewritten.value
          else s.splits + [Split(oldName, newName, "", 1, oldVar.isRVar, RoundUp, RenameVar)];
        assert exists k :: 0 <= k < |splits| && Produces(splits[k], newName) by {
          if rewritten.Some? {
            var k :| LastRelevantAt(s.splits, oldName, k) && rewritten.value == s.splits[k := Redefine(s.splits[k], oldName, newName)];
            assert Produces(splits[k], newName);
          } else {
            assert Produces(splits[|s.splits|], newName);
          }
        }
        Ok(s.(dims := s.dims[i := s.dims[i].(name := newName)], splits := splits))
  }

  /** `Stage::purify(old, new)`: the first loop the reduction variable `old`
      refers to becomes the pure variable loop `new`, keeping its position
      and loop type, and the purify is appended to the history. */
  function Purify(s: Stage, oldVar: VarRef, newVar: VarRef): (r: Result<Stage, Error>)
    ensures r.Ok? <==> oldVar.isRVar && !newVar.isRVar && Refers(s.dims, oldVar.name)
    ensures !oldVar.isRVar ==> r == Err(VarRVarMismatch(oldVar.name))
    ensures oldVar.isRVar && newVar.isRVar ==> r == Err(VarRVarMismatch(newVar.name))
    ensures oldVar.isRVar && !newVar.isRVar && !Refers(s.dims, oldVar.name) ==> r == Err(DimNotFound(oldVar.name))
    ensures r.Ok? ==>
              var i := FindFirst(s.dims, oldVar.name).value;
              && |r.value.dims| == |s.dims|
              && (forall j :: 0 <= j < |s.dims| && j != i ==> r.value.dims[j] == s.dims[j])
              && r.value.dims[i].name == newVar.name
              && r.value.dims[i].forType == s.dims[i].forType
              && IsPure(r.value.dims[i]) && !IsRVar(r.value.dims[i])
              && r.value.splits == s.splits + [Split(s.dims[i].name, newVar.name, "", 1, false, RoundUp, PurifyRVar)]
    ensures r.Ok? ==> r.value == s.(dims := r.value.dims, splits := r.value.splits)
  {
    if !oldVar.isRVar then Err(VarRVarMismatch(oldVar.name))
    else if newVar.isRVar then Err(VarRVarMismatch(newVar.name))
    else
      match FindFirst(s.dims, oldVar.name)
      case None => Err(DimNotFound(oldVar.name))
      case Some(i) =>
        var d := s.dims[i];
        Ok(s.(dims := s.dims[i := d.(name := newVar.name, kind := PureVar)],
              splits := s.splits + [Split(d.name, newVar.name, "", 1, false, RoundUp, PurifyRVar)]))
  }

  /** The point of purifying: the purified loop never trips the race gate
      of `set_dim_type` again, so after `purify` a race error can only come
      from some other loop that already tripped it. */
  lemma PurifyClearsRaceGate(s: Stage, oldVar: VarRef, newVar: VarRef, v: VarRef, t: ForType, prover: AssocResult)
    requires Purify(s, oldVar, newVar).Ok?
    ensures var p := Purify(s, oldVar, newVar).value;
            var i := FindFirst(s.dims, oldVar.name).value;
            var r := DimTypes.SetDimType(p, v, t, prover);
            r.Err? && (r.error.RaceCondition? || r.error == AtomicNotAssociative) ==>
              exists j :: 0 <= j < |s.dims| && j != i && DimTypes.RaceTriggered(s.dims[j], v, t)
  {
    var p := Purify(s, oldVar, newVar).value;
    var i := FindFirst(s.dims, oldVar.name).value;
    var r := DimTypes.SetDimType(p, v, t, prover);
    if r.Err? && (r.error.RaceCondition? || r.error == AtomicNotAssociative) {
      var j :| 0 <= j < |p.dims| && DimTypes.RaceTriggered(p.dims[j], v, t);
      assert j != i;
      assert p.dims[j] == s.dims[j];
    }
  }

  /** An update over one impure reduction loop `r`: it cannot be
      parallelized through `r`, but once `r` is purified into the Var `u`
      it can, whatever the prover says. */
  lemma PurifyUnlocksParallel(r: string, u: string, prover: AssocResult)
    ensures var s := Stage([Dim(r, Serial, ImpureRVar)], [], false, false, false, false, None);
            && DimTypes.SetDimType(s, VarRef(r, true), Parallel, prover) == Err(RaceCondition(r))
            && var p := Purify(s, VarRef(r, true), VarRef(u, false));
               && p.Ok?
               && DimTypes.SetDimType(p.value, VarRef(u, false), Parallel, prover).Ok?
  {
    var s := Stage([Dim(r, Serial, ImpureRVar)], [], false, false, false, false, None);
    assert NameMatch(r, r) && NameMatch(u, u);
    assert DimTypes.RaceTriggered(s.dims[0], VarRef(r, true), Parallel);
    assert FindFirst(s.dims, r) == Some(0);
    var p := Purify(s, VarRef(r, true), VarRef(u, false)).value;
    assert p.dims == [Dim(u, Serial, PureVar)];
  }

  /** `f.rename(x, y).rename(y, z)`: the second rename rewrites the entry the
      first one appended instead of appending another. */
  lemma RenameTwiceRewritesOneEntry()
    ensures var s := Stage([Dim("x", Serial, PureVar)], [], true, false, false, false, None);
            var r1 := Rename(s, VarRef("x", false), VarRef("y", false));
            && r1.Ok?
            && r1.value.splits == [Split("x", "x.y", "", 1, false, RoundUp, RenameVar)]
            && var r2 := Rename(r1.value, VarRef("y", false), VarRef("z", false));
               && r2.Ok?
               && r2.value.dims == [Dim("x.y.z", Serial, PureVar)]
               && r2.value.splits == [Split("x", "x.y.z", "", 1, false, RoundUp, RenameVar)]
  {
    var s := Stage([Dim("x", Serial, PureVar)], [], true, false, false, false, None);
    assert FindFirst(s.dims, "x") == Some(0);
    assert "x" + "." + "y" == "x.y";
    var s1 := Rename(s, VarRef("x", false), VarRef("y", false)).value;
    assert s1.dims == [Dim("x.y", Serial, PureVar)];
    QualifiedNameMatches("x", "y");
    assert FindFirst(s1.dims, "y") == Some(0);
    assert "x.y" + "." + "z" == "x.y.z";
    assert Defines(s1.splits[0], "x.y");
  }

  /** A loop name the history records as fused into another loop cannot be
      renamed: after `split(x, xo, xi, 4)` and `fuse(xi, xo, t)`, a loop
      named `x.xi` is refused a rename. */
  lemma RenameOfFusedLoopRefused()
    ensures var h := [Split("x", "x.xo", "x.xi", 4, false, ShiftInwards, SplitVar),
                      Split("x.xi.t", "x.xo", "x.xi", 0, true, RoundUp, FuseVars)];
            var s := Stage([Dim("x.xi", Serial, PureVar)], h, true, false, false, false, None);
            Rename(s, VarRef("xi", false), VarRef("v", false)) == Err(AlreadyFused("x.xi"))
  {
    var h := [Split("x", "x.xo", "x.xi", 4, false, ShiftInwards, SplitVar),
              Split("x.xi.t", "x.xo", "x.xi", 0, true, RoundUp, FuseVars)];
    var s := Stage([Dim("x.xi", Serial, PureVar)], h, true, false, false, false, None);
    QualifiedNameMatches("x", "xi");
    assert FindFirst(s.dims, "xi") == Some(0);
    assert Blocks(h[1], "x.xi");
  }
}

=== FILE: reorder.dfy ===
/** `Stage::reorder` (Halide/src/Func.cpp): permuting the loops a directive
    names among the positions they occupy, and keeping a `compute_with`
    fuse level on the loop at the same position. */
module Reordering {
  import opened Wrappers
  import opened Names
  import opened Seqs
  import opened Schedule

  /** Position of every named variable: the LAST loop it refers to, since
      the search of `reorder` does not stop at the first match. */
  function ResolveAll(dims: seq<Dim>, vars: seq<VarRef>): (r: Result<seq<nat>, Error>)
    ensures r.Ok? <==> forall k :: 0 <= k < |vars| ==> FindLast(dims, vars[k].name).Some?
    ensures r.Ok? ==> |r.value| == |vars| && InRange(r.value, |dims|)
    ensures r.Ok? ==> forall k :: 0 <= k < |vars| ==> FindLast(dims, vars[k].name) == Some(r.value[k])
    ensures r.Err? ==> exists k :: 0 <= k < |vars| && FindLast(dims, vars[k].name).None? && r.error == DimNotFound(vars[k].name)
                                   && forall j :: 0 <= j < k ==> FindLast(dims, vars[j].name).Some?
  {
    var k := FirstFailing(vars, FoundIn(dims), 0);
    assert forall j :: 0 <= j < k ==> FindLast(dims, vars[j].name).Some?;
    if k < |vars| then Err(DimNotFound(vars[k].name))
    else Ok(seq(|vars|, j requires 0 <= j < |vars| => FindLast(dims, vars[j].name).value))
  }

  function FoundIn(dims: seq<Dim>): VarRef -> bool {
    (v: VarRef) => FindLast(dims, v.name).Some?
  }

  /** Every resolved position holds a loop the variable refers to. */
  lemma ResolvedMatch(dims: seq<Dim>, vars: seq<VarRef>, idx: seq<nat>)
    requires ResolveAll(dims, vars) == Ok(idx)
    ensures forall k :: 0 <= k < |vars| ==> NameMatch(dims[idx[k]].name, vars[k].name)
  {
  }

  /** Named variables `i` before `j` are both reduction loops that are not
      pure and the reorder swaps their nesting. */
  predicate Unsafe(dims: seq<Dim>, idx: seq<nat>, i: int, j: int) {
    && 0 <= i < j < |idx| && idx[i] < |dims| && idx[j] < |dims|
    && !IsPure(dims[idx[i]]) && !IsPure(dims[idx[j]]) && idx[i] > idx[j]
  }

  /** The first unsafe pair in lexicographic order, from pair `(i, j)` on. */
  function FindUnsafe(dims: seq<Dim>, idx: seq<nat>, i: nat, j: nat): (r: Option<(nat, nat)>)
    requires i < j
    ensures r.Some? ==> Unsafe(dims, idx, r.value.0, r.value.1)
    ensures r.Some? ==> forall a, b :: Unsafe(dims, idx, a, b) && (a > i || (a == i && b >= j))
                                       ==> r.value.0 < a || (r.value.0 == a && r.value.1 <= b)
    ensures r.None? ==> forall a, b :: Unsafe(dims, idx, a, b) ==> a < i || (a == i && b < j)
    decreases |idx| - i, |idx| - j
  {
    if i >= |idx| then None
    else if j >= |idx| then FindUnsafe(dims, idx, i + 1, i + 2)
    else if Unsafe(dims, idx, i, j) then Some((i, j))
    else FindUnsafe(dims, idx, i, j + 1)
  }

  /** The first named variable that repeats an earlier one's position. */
  function FindDuplicate(idx: seq<nat>): (r: Option<nat>)
    ensures r.None? <==> Distinct(idx)
    ensures r.Some? ==> r.value < |idx| && exists j :: 0 <= j < r.value && idx[j] == idx[r.value]
  {
    if |idx| == 0 then None
    else
      var last := |idx| - 1;
      var prefix := idx[..last];
      assert forall j :: 0 <= j < last ==> idx[j] == prefix[j];
      match FindDuplicate(prefix)
      case Some(k) => Some(k)
      case None =>
        if idx[last] in prefix then
          var j :| 0 <= j < last && prefix[j] == idx[last];
          Some(last)
        else None
  }

  /** Slots are sorted by their own position in the loop list. */
  function SlotKey(n: nat): int {
    n
  }

  /** The positions the named loops occupy, in increasing order. */
  function Slots(idx: seq<nat>): (r: seq<nat>)
    ensures SortedBy(r, SlotKey) && multiset(r) == multiset(idx)
    ensures |r| == |idx|
  {
    assert |multiset(SortBy(idx, SlotKey))| == |multiset(idx)|;
    SortBy(idx, SlotKey)
  }

  lemma SlotsInRange(idx: seq<nat>, n: nat)
    requires InRange(idx, n)
    ensures InRange(Slots(idx), n)
  {
    var sorted := Slots(idx);
    forall k | 0 <= k < |sorted| ensures sorted[k] < n {
      assert sorted[k] in multiset(idx);
    }
  }

  /** The loop list after the reorder: the k-th smallest of the named
      positions receives the loop the k-th named variable referred to. */
  function PermuteDims(dims: seq<Dim>, idx: seq<nat>): (r: seq<Dim>)
    requires InRange(idx, |dims|)
    ensures |r| == |dims|
    ensures forall i :: 0 <= i < |dims| && i !in Slots(idx) ==> r[i] == dims[i]
  {
    SlotsInRange(idx, |dims|);
    Scatter(dims, Slots(idx), Gather(dims, idx))
  }

  /** With distinct positions the reorder is a permutation of the loops and
      puts the k-th named loop at the k-th smallest named position. */
  lemma {:induction false} PermuteDimsPermutes(dims: seq<Dim>, idx: seq<nat>)
    requires InRange(idx, |dims|) && Distinct(idx)
    ensures InRange(Slots(idx), |dims|) && Distinct(Slots(idx))
    ensures multiset(PermuteDims(dims, idx)) == multiset(dims)
    ensures forall k :: 0 <= k < |idx| ==> PermuteDims(dims, idx)[Slots(idx)[k]] == dims[idx[k]]
  {
    var sorted := Slots(idx);
    var moved := Gather(dims, idx);
    SlotsInRange(idx, |dims|);
    DistinctPermutation(idx, sorted);
    ScatterMultiset(dims, sorted, moved);
    GatherPermutation(dims, sorted, idx);
    var r := Scatter(dims, sorted, moved);
    MultisetCancel(multiset(r), multiset(moved), multiset(dims));
  }

  /** The first variable whose name satisfies `p`. */
  function FindVar(vars: seq<VarRef>, p: string -> bool): (r: Option<nat>)
    ensures r.Some? ==> r.value < |vars| && p(vars[r.value].name)
    ensures r.None? <==> forall k :: 0 <= k < |vars| ==> !p(vars[k].name)
  {
    if |vars| == 0 then None
    else if p(vars[0].name) then Some(0)
    else
      assert forall k :: 1 <= k < |vars| ==> vars[k] == vars[1..][k - 1];
      match FindVar(vars[1..], p)
      case None => None
      case Some(k) => Some(k + 1)
  }

  /** The name `reorder` takes for the loop now at the position of the fuse
      level's loop: the empty string when the level refers to no loop, and
      then the innermost loop's name. None when there are no loops, where
      the source reads past the end of the list. */
  function LevelSlotName(oldDims: seq<Dim>, newDims: seq<Dim>, target: VarRef): (r: Option<string>)
    requires |oldDims| == |newDims|
    ensures r.None? <==> |newDims| == 0
    ensures Refers(oldDims, target.name) && newDims[FindFirst(oldDims, target.name).value].name != "" ==>
              r == Some(newDims[FindFirst(oldDims, target.name).value].name)
    ensures !Refers(oldDims, target.name) && |newDims| > 0 ==> r == Some(newDims[0].name)
  {
    var found := match FindFirst(oldDims, target.name)
                 case Some(i) => newDims[i].name
                 case None => "";
    if found != "" then Some(found)
    else if |newDims| == 0 then None
    else Some(newDims[0].name)
  }

  /** The fuse-level update of `reorder`, as written: the name of the loop
      at the level's old position is compared with the level's unqualified
      variable name, and looked up among the reordered variables with the
      arguments of `var_name_match` in the wrong order, so that a qualified
      loop name trips its internal assertion. */
  function RetargetAsWritten(oldDims: seq<Dim>, newDims: seq<Dim>, vars: seq<VarRef>, target: VarRef): (r: Result<VarRef, Error>)
    requires |oldDims| == |newDims|
    ensures r.Ok? ==> r.value == target || r.value in vars
    ensures (&& Unqualified(target.name) && LevelSlotName(oldDims, newDims, target).Some?
             && !Unqualified(LevelSlotName(oldDims, newDims, target).value)) ==> r == Err(InternalError)
  {
    match LevelSlotName(oldDims, newDims, target)
    case None => Err(InternalError)
    case Some(n) =>
      if n == target.name then Ok(target)
      else if !Unqualified(n) then Err(InternalError)
      else
        match FindVar(vars, v => NameMatch(v, n))
        case None => Err(InternalError)
        case Some(k) => Ok(vars[k])
  }

  /** The loop now at the position of the fuse level's loop, or the
      innermost loop when the level refers to none; None when there are no
      loops. */
  function LevelSlot(oldDims: seq<Dim>, newDims: seq<Dim>, target: VarRef): (r: Option<Dim>)
    requires |oldDims| == |newDims|
    ensures r.None? <==> !Refers(oldDims, target.name) && |newDims| == 0
    ensures Refers(oldDims, target.name) ==> r == Some(newDims[FindFirst(oldDims, target.name).value])
    ensures !Refers(oldDims, target.name) && |newDims| > 0 ==> r == Some(newDims[0])
  {
    match FindFirst(oldDims, target.name)
    case Some(i) => Some(newDims[i])
    case None => if |newDims| == 0 then None else Some(newDims[0])
  }

  /** The fuse-level update with the comparison done by name matching, the
      way every other directive resolves names: the level stays when the
      loop at its position still answers to it, and otherwise moves to the
      first reordered variable that loop answers to. */
  function Retarget(oldDims: seq<Dim>, newDims: seq<Dim>, vars: seq<VarRef>, target: VarRef): (r: Result<VarRef, Error>)
    requires |oldDims| == |newDims|
    ensures r.Ok? ==> r.value == target || r.value in vars
    ensures r.Ok? ==> LevelSlot(oldDims, newDims, target).Some?
                      && NameMatch(LevelSlot(oldDims, newDims, target).value.name, r.value.name)
    ensures r.Err? <==>
              || LevelSlot(oldDims, newDims, target).None?
              || (&& !NameMatch(LevelSlot(oldDims, newDims, target).value.name, target.name)
                  && forall k :: 0 <= k < |vars| ==> !NameMatch(LevelSlot(oldDims, newDims, target).value.name, vars[k].name))
  {
    match LevelSlot(oldDims, newDims, target)
    case None => Err(InternalError)
    case Some(d) =>
      if NameMatch(d.name, target.name) then Ok(target)
      else
        match FindVar(vars, v => NameMatch(d.name, v))
        case None => Err(InternalError)
        case Some(k) => Ok(vars[k])
  }

  /** The checks shared by both versions of `reorder`: every variable must
      name a loop, and swapping two impure reduction loops needs an
      associative and commutative update. */
  function ReorderChecks(s: Stage, vars: seq<VarRef>, prover: AssocResult): (r: Result<seq<nat>, Error>)
    ensures r.Ok? ==> r == ResolveAll(s.dims, vars)
    ensures ResolveAll(s.dims, vars).Err? ==> r == ResolveAll(s.dims, vars)
    ensures ResolveAll(s.dims, vars).Ok? ==>
              (r.Err? <==> (exists i, j :: Unsafe(s.dims, ResolveAll(s.dims, vars).value, i, j))
                           && !(prover.associative && prover.commutative))
    ensures r.Err? && ResolveAll(s.dims, vars).Ok? ==> r.error.UnsafeReorder?
    ensures r.Err? && ResolveAll(s.dims, vars).Ok? ==>
              var p := FindUnsafe(s.dims, ResolveAll(s.dims, vars).value, 0, 1);
              && p.Some? && p.value.1 < |vars|
              && r.error == UnsafeReorder(vars[p.value.0].name, vars[p.value.1].name)
  {
    var idx :- ResolveAll(s.dims, vars);
    match FindUnsafe(s.dims, idx, 0, 1)
    case Some((i, j)) =>
      if prover.associative && prover.commutative then Ok(idx)
      else Err(UnsafeReorder(vars[i].name, vars[j].name))
    case None => Ok(idx)
  }

  /** `Stage::reorder(vars)` as written: a variable named twice is not
      refused. */
  function ReorderAsWritten(s: Stage, vars: seq<VarRef>, prover: AssocResult): (r: Result<Stage, Error>)
    ensures ReorderChecks(s, vars, prover).Err? ==> r == Err(ReorderChecks(s, vars, prover).error)
    ensures r.Ok? ==> |r.value.dims| == |s.dims|
    ensures r.Ok? ==> forall i :: 0 <= i < |s.dims| ==> r.value.dims[i] in s.dims
  {
    var idx :- ReorderChecks(s, vars, prover);
    var dims := PermuteDims(s.dims, idx);
    assert forall i :: 0 <= i < |s.dims| ==> dims[i] in s.dims by {
      SlotsInRange(idx, |s.dims|);
      ScatterTakesFrom(s.dims, Slots(idx), Gather(s.dims, idx));
      assert forall v :: v in Gather(s.dims, idx) ==> v in s.dims;
    }
    match s.fuseLevel
    case None => Ok(s.(dims := dims))
    case Some(t) =>
      var t' :- RetargetAsWritten(s.dims, dims, vars, t);
      Ok(s.(dims := dims, fuseLevel := Some(t')))
  }

  /** With every variable naming a different loop and no fuse level, the
      corrected `reorder` computes what the source computes: the two differ
      only on repeated variables and on the fuse-level update. */
  lemma AsWrittenAgreesWhenDistinct(s: Stage, vars: seq<VarRef>, prover: AssocResult)
    requires ReorderChecks(s, vars, prover).Ok? && Distinct(ReorderChecks(s, vars, prover).value)
    requires s.fuseLevel.None?
    ensures ReorderAsWritten(s, vars, prover) == Reorder(s, vars, prover)
    ensures Reorder(s, vars, prover).Ok?
  {
    var idx := ReorderChecks(s, vars, prover).value;
    assert FindDuplicate(idx).None?;
  }

  /** Every element of a scatter is the original element or one of the
      written values. */
  lemma {:induction false} ScatterTakesFrom(x: seq<Dim>, pos: seq<nat>, vals: seq<Dim>)
    requires |pos| == |vals| && InRange(pos, |x|)
    ensures forall i :: 0 <= i < |x| ==> Scatter(x, pos, vals)[i] == x[i] || Scatter(x, pos, vals)[i] in vals
    decreases |pos|
  {
    if |pos| > 0 {
      var x' := x[pos[0] := vals[0]];
      assert forall k :: 1 <= k < |pos| ==> pos[k] == pos[1..][k - 1];
      ScatterTakesFrom(x', pos[1..], vals[1..]);
      assert forall v :: v in vals[1..] ==> v in vals;
    }
  }

  /** `Stage::reorder(vars)` with a repeated variable refused and the fuse
      level retargeted by name matching. */
  function Reorder(s: Stage, vars: seq<VarRef>, prover: AssocResult): (r: Result<Stage, Error>)
    ensures ReorderChecks(s, vars, prover).Err? ==> r == Err(ReorderChecks(s, vars, prover).error)
    ensures ReorderChecks(s, vars, prover).Ok? && !Distinct(ReorderChecks(s, vars, prover).value) ==>
              r.Err? && r.error.DuplicateReorder?
    ensures r.Ok? ==> ReorderChecks(s, vars, prover).Ok? && Distinct(ResolveAll(s.dims, vars).value)
    ensures r.Ok? ==> IsReorder(s.dims, vars, ResolveAll(s.dims, vars).value, r.value.dims)
    ensures r.Ok? ==> r.value == s.(dims := r.value.dims, fuseLevel := r.value.fuseLevel)
    ensures r.Ok? && s.fuseLevel.None? ==> r.value.fuseLevel.None?
    ensures r.Ok? && s.fuseLevel.Some? ==>
              var t := r.value.fuseLevel;
              && t.Some? && (t.value == s.fuseLevel.value || t.value in vars)
              && LevelSlot(s.dims, r.value.dims, s.fuseLevel.value).Some?
              && NameMatch(LevelSlot(s.dims, r.value.dims, s.fuseLevel.value).value.name, t.value.name)
    ensures r.Err? && ReorderChecks(s, vars, prover).Ok? && Distinct(ReorderChecks(s, vars, prover).value) ==>
              r.error == InternalError && s.fuseLevel.Some? && !Refers(s.dims, s.fuseLevel.value.name)
  {
    var idx :- ReorderChecks(s, vars, prover);
    match FindDuplicate(idx)
    case Some(k) => Err(DuplicateReorder(vars[k].name))
    case None => ApplyReorder(s, vars, idx)
  }

  /** The reorder once its checks have passed: the loops are permuted and
      the fuse level follows the loop at its position. */
  function ApplyReorder(s: Stage, vars: seq<VarRef>, idx: seq<nat>): (r: Result<Stage, Error>)
    requires ResolveAll(s.dims, vars) == Ok(idx) && Distinct(idx)
    ensures r.Ok? ==> IsReorder(s.dims, vars, idx, r.value.dims)
    ensures r.Ok? ==> r.value == s.(dims := r.value.dims, fuseLevel := r.value.fuseLevel)
    ensures r.Ok? && s.fuseLevel.None? ==> r.value.fuseLevel.None?
    ensures r.Ok? && s.fuseLevel.Some? ==>
              var t := r.value.fuseLevel;
              && t.Some? && (t.value == s.fuseLevel.value || t.value in vars)
              && LevelSlot(s.dims, r.value.dims, s.fuseLevel.value).Some?
              && NameMatch(LevelSlot(s.dims, r.value.dims, s.fuseLevel.value).value.name, t.value.name)
    ensures r.Err? ==> r.error == InternalError && s.fuseLevel.Some? && !Refers(s.dims, s.fuseLevel.value.name)
  {
    var dims := PermuteDims(s.dims, idx);
    PermuteDimsIsReorder(s.dims, vars, idx);
    match s.fuseLevel
    case None => Ok(s.(dims := dims))
    case Some(t) =>
      if Refers(s.dims, t.name) then
        RetargetFindsMovedLoop(s.dims, vars, idx, t);
        Ok(s.(dims := dims, fuseLevel := Some(Retarget(s.dims, dims, vars, t).value)))
      else
        var t' :- Retarget(s.dims, dims, vars, t);
        Ok(s.(dims := dims, fuseLevel := Some(t')))
  }

  /** `after` is `before` with the loops the variables refer to (at the
      positions `idx`) permuted among those positions, in the order the
      variables are listed, innermost first; no loop is lost or duplicated
      and the loops at other positions stay. */
  predicate IsReorder(before: seq<Dim>, vars: seq<VarRef>, idx: seq<nat>, after: seq<Dim>)
    requires |idx| == |vars|
  {
    && |after| == |before|
    && multiset(after) == multiset(before)
    && (forall k :: 0 <= k < |vars| ==> Slots(idx)[k] < |after| && idx[k] < |before|
                                        && after[Slots(idx)[k]] == before[idx[k]]
                                        && NameMatch(after[Slots(idx)[k]].name, vars[k].name))
    && (forall i :: 0 <= i < |before| && i !in idx ==> after[i] == before[i])
  }

  lemma PermuteDimsIsReorder(dims: seq<Dim>, vars: seq<VarRef>, idx: seq<nat>)
    requires ResolveAll(dims, vars) == Ok(idx) && Distinct(idx)
    ensures IsReorder(dims, vars, idx, PermuteDims(dims, idx))
  {
    PermuteDimsPermutes(dims, idx);
    ResolvedMatch(dims, vars, idx);
    SlotsInRange(idx, |dims|);
    forall i | i in Slots(idx) ensures i in idx {
      assert i in multiset(Slots(idx));
    }
  }

  /** Each position of the reordered list holds its old loop or a loop one
      of the variables refers to. */
  lemma SlotAnswers(dims: seq<Dim>, vars: seq<VarRef>, idx: seq<nat>, i: nat)
    requires ResolveAll(dims, vars) == Ok(idx) && Distinct(idx) && i < |dims|
    ensures || PermuteDims(dims, idx)[i] == dims[i]
            || exists m :: 0 <= m < |vars| && NameMatch(PermuteDims(dims, idx)[i].name, vars[m].name)
  {
    PermuteDimsIsReorder(dims, vars, idx);
    var sorted := Slots(idx);
    if i in sorted {
      var m :| 0 <= m < |sorted| && sorted[m] == i;
      assert NameMatch(PermuteDims(dims, idx)[i].name, vars[m].name);
    }
  }

  /** When the fuse level refers to a loop, the corrected update always
      finds its new variable: the loop now at the level's position is either
      the level's own loop or one the reorder moved there, and each moved
      loop answers to the variable that named it. */
  lemma RetargetFindsMovedLoop(dims: seq<Dim>, vars: seq<VarRef>, idx: seq<nat>, target: VarRef)
    requires ResolveAll(dims, vars) == Ok(idx) && Distinct(idx)
    requires Refers(dims, target.name)
    ensures var newDims := PermuteDims(dims, idx);
            var r := Retarget(dims, newDims, vars, target);
            && r.Ok?
            && NameMatch(newDims[FindFirst(dims, target.name).value].name, r.value.name)
  {
    var i := FindFirst(dims, target.name).value;
    SlotAnswers(dims, vars, idx, i);
  }

  /** Reordering loops that are all pure never needs the prover: only the
      lookup can fail. */
  lemma PureReorderIsSafe(s: Stage, vars: seq<VarRef>, prover: AssocResult)
    requires forall j :: 0 <= j < |s.dims| ==> IsPure(s.dims[j])
    ensures ReorderChecks(s, vars, prover) == ResolveAll(s.dims, vars)
  {
    if ResolveAll(s.dims, vars).Ok? {
      var idx := ResolveAll(s.dims, vars).value;
      assert forall i, j :: !Unsafe(s.dims, idx, i, j);
    }
  }

  /** A variable named twice makes the reorder lose a loop: reordering the
      loops `[a, b]` by `(b, a, b)` gives `[b, b]`. */
  lemma DuplicateReorderLosesLoop(a: string, b: string, prover: AssocResult)
    requires Unqualified(a) && Unqualified(b) && a != b
    ensures var s := Stage([Dim(a, Serial, PureVar), Dim(b, Serial, PureVar)], [], true, false, false, false, None);
            var r := ReorderAsWritten(s, [VarRef(b, false), VarRef(a, false), VarRef(b, false)], prover);
            && r.Ok?
            && r.value.dims == [Dim(b, Serial, PureVar), Dim(b, Serial, PureVar)]
            && multiset(r.value.dims) != multiset(s.dims)
  {
    AsWrittenTwiceNamed(a, b, prover);
    assert multiset([Dim(b, Serial, PureVar), Dim(b, Serial, PureVar)])[Dim(a, Serial, PureVar)] == 0;
  }

  lemma AsWrittenTwiceNamed(a: string, b: string, prover: AssocResult)
    requires Unqualified(a) && Unqualified(b) && a != b
    ensures var s := Stage([Dim(a, Serial, PureVar), Dim(b, Serial, PureVar)], [], true, false, false, false, None);
            ReorderAsWritten(s, [VarRef(b, false), VarRef(a, false), VarRef(b, false)], prover)
              == Ok(s.(dims := [Dim(b, Serial, PureVar), Dim(b, Serial, PureVar)]))
  {
    var s := Stage([Dim(a, Serial, PureVar), Dim(b, Serial, PureVar)], [], true, false, false, false, None);
    var vars := [VarRef(b, false), VarRef(a, false), VarRef(b, false)];
    ResolveTwiceNamed(a, b);
    PureReorderIsSafe(s, vars, prover);
    PermuteTwiceNamed(a, b);
  }

  lemma ResolveTwiceNamed(a: string, b: string)
    requires Unqualified(a) && Unqualified(b) && a != b
    ensures ResolveAll([Dim(a, Serial, PureVar), Dim(b, Serial, PureVar)],
                       [VarRef(b, false), VarRef(a, false), VarRef(b, false)]) == Ok([1, 0, 1])
  {
    var dims := [Dim(a, Serial, PureVar), Dim(b, Serial, PureVar)];
    var vars := [VarRef(b, false), VarRef(a, false), VarRef(b, false)];
    UnqualifiedMatchesOnlyItself(a, b);
    UnqualifiedMatchesOnlyItself(b, a);
    assert FindLast(dims, b) == Some(1);
    assert dims[..1] == [Dim(a, Serial, PureVar)];
    assert FindLast(dims, a) == Some(0);
    var idx := ResolveAll(dims, vars);
    assert idx.Ok?;
    assert idx.value[0] == 1 && idx.value[1] == 0 && idx.value[2] == 1;
    assert idx.value == [1, 0, 1];
  }

  lemma PermuteTwiceNamed(a: string, b: string)
    ensures PermuteDims([Dim(a, Serial, PureVar), Dim(b, Serial, PureVar)], [1, 0, 1])
            == [Dim(b, Serial, PureVar), Dim(b, Serial, PureVar)]
  {
    var dims := [Dim(a, Serial, PureVar), Dim(b, Serial, PureVar)];
    SlotsTwiceNamed();
    var g := Gather(dims, [1, 0, 1]);
    assert g == [dims[1], dims[0], dims[1]];
    ScatterOverwrites(dims[0], dims[1]);
  }

  /** The corrected reorder refuses the same call. */
  lemma DuplicateReorderRefused(a: string, b: string, prover: AssocResult)
    requires Unqualified(a) && Unqualified(b) && a != b
    ensures var s := Stage([Dim(a, Serial, PureVar), Dim(b, Serial, PureVar)], [], true, false, false, false, None);
            Reorder(s, [VarRef(b, false), VarRef(a, false), VarRef(b, false)], prover) == Err(DuplicateReorder(b))
  {
    var s := Stage([Dim(a, Serial, PureVar), Dim(b, Serial, PureVar)], [], true, false, false, false, None);
    var vars := [VarRef(b, false), VarRef(a, false), VarRef(b, false)];
    ResolveTwiceNamed(a, b);
    PureReorderIsSafe(s, vars, prover);
    assert FindDuplicate([1, 0, 1]) == Some(2);
  }

  /** Whenever the fuse level's loop has a qualified name (it was split,
      fused or renamed) and the reorder leaves it in place, the update as
      written trips the internal assertion, while the corrected update keeps
      the level. */
  lemma RetargetAsWrittenFailsOnQualifiedLevel(oldDims: seq<Dim>, newDims: seq<Dim>, vars: seq<VarRef>, target: VarRef)
    requires |oldDims| == |newDims| && Unqualified(target.name)
    requires Refers(oldDims, target.name)
    requires var i := FindFirst(oldDims, target.name).value;
             newDims[i] == oldDims[i] && oldDims[i].name != target.name
    ensures RetargetAsWritten(oldDims, newDims, vars, target) == Err(InternalError)
    ensures Retarget(oldDims, newDims, vars, target) == Ok(target)
  {
    var n := oldDims[FindFirst(oldDims, target.name).value].name;
    DotBeforeSuffix(n, target.name);
  }

  /** The smallest such call: `[x.xi, x.xo, y]` reordered by `(y, xo)` with
      the level on `xi`. */
  lemma RetargetAsWrittenFailsOnSplitLevel(x: string, xi: string, xo: string, y: string)
    requires Unqualified(xi) && Unqualified(xo) && Unqualified(y)
    requires xi != xo && y != xo
    ensures var oldDims := [Dim(x + "." + xi, Serial, PureVar), Dim(x + "." + xo, Serial, PureVar), Dim(y, Serial, PureVar)];
            var vars := [VarRef(y, false), VarRef(xo, false)];
            && ResolveAll(oldDims, vars) == Ok([2, 1])
            && RetargetAsWritten(oldDims, PermuteDims(oldDims, [2, 1]), vars, VarRef(xi, false)) == Err(InternalError)
            && Retarget(oldDims, PermuteDims(oldDims, [2, 1]), vars, VarRef(xi, false)) == Ok(VarRef(xi, false))
  {
    var oldDims := [Dim(x + "." + xi, Serial, PureVar), Dim(x + "." + xo, Serial, PureVar), Dim(y, Serial, PureVar)];
    var vars := [VarRef(y, false), VarRef(xo, false)];
    ResolveSplitLevel(x, xi, xo, y);
    PermuteSplitLevel(oldDims[0], oldDims[1], oldDims[2]);
    QualifiedNameMatches(x, xi);
    assert FindFirst(oldDims, xi) == Some(0);
    assert |x + "." + xi| > |xi|;
    RetargetAsWrittenFailsOnQualifiedLevel(oldDims, PermuteDims(oldDims, [2, 1]), vars, VarRef(xi, false));
  }

  lemma ResolveSplitLevel(x: string, xi: string, xo: string, y: string)
    requires Unqualified(xo) && Unqualified(y) && y != xo
    ensures ResolveAll([Dim(x + "." + xi, Serial, PureVar), Dim(x + "." + xo, Serial, PureVar), Dim(y, Serial, PureVar)],
                       [VarRef(y, false), VarRef(xo, false)]) == Ok([2, 1])
  {
    var oldDims := [Dim(x + "." + xi, Serial, PureVar), Dim(x + "." + xo, Serial, PureVar), Dim(y, Serial, PureVar)];
    var vars := [VarRef(y, false), VarRef(xo, false)];
    QualifiedNameMatches(x, xo);
    UnqualifiedMatchesOnlyItself(y, xo);
    assert FindLast(oldDims, y) == Some(2);
    assert oldDims[..2] == [Dim(x + "." + xi, Serial, PureVar), Dim(x + "." + xo, Serial, PureVar)];
    assert FindLast(oldDims, xo) == Some(1);
    var idx := ResolveAll(oldDims, vars);
    assert idx.Ok?;
    assert idx.value[0] == 2 && idx.value[1] == 1;
    assert idx.value == [2, 1];
  }

  /** Writing `b, a, b` at positions `0, 1, 1` of `[a, b]`. */
  lemma ScatterOverwrites<T>(a: T, b: T)
    ensures Scatter([a, b], [0, 1, 1], [b, a, b]) == [b, b]
  {
    var pos: seq<nat> := [0, 1, 1];
    var vals := [b, a, b];
    assert pos[1..] == [1, 1] && pos[1..][1..] == [1] && pos[1..][1..][1..] == [];
    assert vals[1..] == [a, b] && vals[1..][1..] == [b] && vals[1..][1..][1..] == [];
    assert Scatter([b, b], [], []) == [b, b];
    assert Scatter([b, a], [1], [b]) == [b, b];
    assert Scatter([b, b], [1, 1], [a, b]) == [b, b];
  }

  lemma SlotsSwap()
    ensures Slots([2, 1]) == [1, 2]
  {
    var s1: seq<nat> := [1];
    var s21: seq<nat> := [2, 1];
    assert SortBy(s1, SlotKey) == [1];
    assert s21[1..] == s1;
    assert InsertBy(2, s1, SlotKey) == [1, 2];
  }

  lemma SlotsTwiceNamed()
    ensures Slots([1, 0, 1]) == [0, 1, 1]
  {
    var s1: seq<nat> := [1];
    var s01: seq<nat> := [0, 1];
    var s101: seq<nat> := [1, 0, 1];
    assert SortBy(s1, SlotKey) == [1];
    assert s01[1..] == s1;
    assert SortBy(s01, SlotKey) == [0, 1];
    assert s101[1..] == s01;
    assert InsertBy(1, s01, SlotKey) == [0, 1, 1];
  }

  lemma PermuteSplitLevel(p: Dim, q: Dim, r: Dim)
    ensures PermuteDims([p, q, r], [2, 1]) == [p, r, q]
  {
    var dims := [p, q, r];
    SlotsSwap();
    assert Gather(dims, [2, 1]) == [r, q];
    ScatterSwap(p, q, r);
  }

  /** Writing `r, q` at positions `1, 2` of `[p, q, r]`. */
  lemma ScatterSwap<T>(p: T, q: T, r: T)
    ensures Scatter([p, q, r], [1, 2], [r, q]) == [p, r, q]
  {
    var pos: seq<nat> := [1, 2];
    var vals := [r, q];
    assert pos[1..] == [2] && vals[1..] == [q];
    assert pos[1..][1..] == [] && vals[1..][1..] == [];
    assert Scatter([p, r, q], [], []) == [p, r, q];
    assert Scatter([p, r, r], [2], [q]) == [p, r, q];
  }
}

=== FILE: rfactor.dfy ===
/** The validation and bookkeeping half of `Stage::rfactor`
    (Halide/src/Func.cpp): which `(RVar, Var)` pairs are acceptable, when a
    non-commutative reduction may be factored, and how the reduction domain
    is divided between the intermediate function and the merge stage. The
    construction of the new definitions' expressions is not part of this
    model. */
module Rfactoring {
  import opened Wrappers
  import opened Names
  import opened Seqs
  import opened Schedule

  /** One `(RVar, Var)` pair: the reduction variable that stays a reduction
      in the merge stage, and the pure variable that replaces it in the
      intermediate function. */
  datatype Preserve = Preserve(rvar: string, v: string)

  /** What rfactor decides once its checks pass: the pairs in the order of
      the reduction domain, the reduction variables lifted into the
      intermediate function's domain, and those kept in the merge stage's. */
  datatype Plan = Plan(preserved: seq<Preserve>, intermediate: seq<string>, kept: seq<string>)

  /** `rv` names a reduction loop: the first loop it refers to exists and is
      a reduction variable. */
  predicate InDomain(dims: seq<Dim>, rv: string) {
    match FindFirst(dims, rv)
    case None => false
    case Some(i) => IsRVar(dims[i])
  }

  /** A pair is acceptable when its reduction variable is a reduction loop
      and its new pure variable is not already a loop of the stage. */
  predicate PairOk(dims: seq<Dim>, p: Preserve) {
    InDomain(dims, p.rvar) && !Refers(dims, p.v)
  }

  /** The complaint about an unacceptable pair: the reduction-domain check
      comes first. */
  function PairError(dims: seq<Dim>, p: Preserve): (e: Error)
    requires !PairOk(dims, p)
    ensures e == NotInReductionDomain(p.rvar) <==> !InDomain(dims, p.rvar)
    ensures e == NameCollision(p.v) <==> InDomain(dims, p.rvar)
  {
    if !InDomain(dims, p.rvar) then NotInReductionDomain(p.rvar) else NameCollision(p.v)
  }

  function PairOkIn(dims: seq<Dim>): Preserve -> bool {
    (p: Preserve) => PairOk(dims, p)
  }

  /** The checks of the pairs, in the order the user gave them: the first
      unacceptable pair is the one reported. */
  function CheckPairs(dims: seq<Dim>, ps: seq<Preserve>): (r: Result<(), Error>)
    ensures r.Ok? <==> forall k :: 0 <= k < |ps| ==> PairOk(dims, ps[k])
    ensures r.Err? ==> exists k :: 0 <= k < |ps| && !PairOk(dims, ps[k]) && r.error == PairError(dims, ps[k])
                                   && forall j :: 0 <= j < k ==> PairOk(dims, ps[j])
  {
    var k := FirstFailing(ps, PairOkIn(dims), 0);
    assert forall j :: 0 <= j < k ==> PairOk(dims, ps[j]);
    if k == |ps| then Ok(())
    else Err(PairError(dims, ps[k]))
  }

  /** Loop `i` is the first loop some pair's reduction variable refers to:
      the loops rfactor marks as factored. */
  predicate Rfactored(dims: seq<Dim>, ps: seq<Preserve>, i: nat) {
    exists k :: 0 <= k < |ps| && FindFirst(dims, ps[k].rvar) == Some(i)
  }

  /** The factored flag of every loop. */
  function Marks(dims: seq<Dim>, ps: seq<Preserve>): (m: seq<bool>)
    ensures |m| == |dims|
    ensures forall i :: 0 <= i < |dims| ==> (m[i] <==> Rfactored(dims, ps, i))
  {
    seq(|dims|, i requires 0 <= i < |dims| => Rfactored(dims, ps, i))
  }

  /** Index of the innermost reduction loop at position `n` or outside it. */
  function NextRVar(dims: seq<Dim>, n: nat): (r: Option<nat>)
    requires n <= |dims|
    ensures r.Some? ==> n <= r.value < |dims| && IsRVar(dims[r.value])
    ensures r.Some? ==> forall k :: n <= k < r.value ==> !IsRVar(dims[k])
    ensures r.None? <==> forall k :: n <= k < |dims| ==> !IsRVar(dims[k])
    decreases |dims| - n
  {
    if n == |dims| then None
    else if IsRVar(dims[n]) then Some(n)
    else NextRVar(dims, n + 1)
  }

  /** The walk of a non-commutative rfactor over the loops at positions
      below `n`, outermost first: `last` is the innermost reduction loop seen
      so far, and a factored loop needs that loop factored too. */
  function OrderWalk(dims: seq<Dim>, marks: seq<bool>, n: nat, last: Option<nat>): (r: Result<(), Error>)
    requires |marks| == |dims| && n <= |dims|
    requires last.Some? ==> last.value < |dims|
    ensures r.Err? ==> exists i :: 0 <= i < n && marks[i] && r.error == NonCommutativeOrder(dims[i].name)
  {
    if n == 0 then Ok(())
    else
      var i := n - 1;
      if last.Some? && marks[i] && !marks[last.value] then Err(NonCommutativeOrder(dims[i].name))
      else OrderWalk(dims, marks, i, if IsRVar(dims[i]) then Some(i) else last)
  }

  /** Every reduction loop outside a factored loop is factored as well: a
      non-commutative reduction may only be split off along its outer
      reduction loops. */
  predicate OuterClosed(dims: seq<Dim>, marks: seq<bool>)
    requires |marks| == |dims|
  {
    forall i, j :: 0 <= i < j < |dims| && marks[i] && IsRVar(dims[j]) ==> marks[j]
  }

  /** Each factored loop below `n` has its nearest outer reduction loop
      factored. */
  predicate NearestOuterMarked(dims: seq<Dim>, marks: seq<bool>, n: nat)
    requires |marks| == |dims| && n <= |dims|
  {
    forall i :: 0 <= i < n && marks[i] && NextRVar(dims, i + 1).Some? ==> marks[NextRVar(dims, i + 1).value]
  }

  /** The walk accepts exactly when every factored loop's nearest outer
      reduction loop is factored. */
  lemma {:induction false} OrderWalkChecksNearest(dims: seq<Dim>, marks: seq<bool>, n: nat)
    requires |marks| == |dims| && n <= |dims|
    ensures OrderWalk(dims, marks, n, NextRVar(dims, n)).Ok? <==> NearestOuterMarked(dims, marks, n)
    decreases n
  {
    if n > 0 {
      var i := n - 1;
      var next := if IsRVar(dims[i]) then Some(i) else NextRVar(dims, n);
      assert next == NextRVar(dims, i);
      OrderWalkChecksNearest(dims, marks, i);
      var here := marks[i] && NextRVar(dims, n).Some? ==> marks[NextRVar(dims, n).value];
      assert NearestOuterMarked(dims, marks, n) <==> here && NearestOuterMarked(dims, marks, i);
    }
  }

  /** Factored loops chain outwards: from a factored loop, every outer
      reduction loop up to `j` is reached through nearest outer reduction
      loops. */
  lemma {:induction false} NearestReachesOuter(dims: seq<Dim>, marks: seq<bool>, i: nat, j: nat)
    requires |marks| == |dims| && NearestOuterMarked(dims, marks, |dims|)
    requires i < j < |dims| && marks[i] && IsRVar(dims[j])
    ensures marks[j]
    decreases j - i
  {
    var m := NextRVar(dims, i + 1);
    assert m.Some? && m.value <= j;
    if m.value < j {
      NearestReachesOuter(dims, marks, m.value, j);
    }
  }

  /** The walk's local condition is the same as requiring every outer
      reduction loop of a factored loop to be factored. */
  lemma NearestIffClosed(dims: seq<Dim>, marks: seq<bool>)
    requires |marks| == |dims|
    ensures NearestOuterMarked(dims, marks, |dims|) <==> OuterClosed(dims, marks)
  {
    if NearestOuterMarked(dims, marks, |dims|) {
      forall i, j | 0 <= i < j < |dims| && marks[i] && IsRVar(dims[j]) ensures marks[j] {
        NearestReachesOuter(dims, marks, i, j);
      }
    }
  }

  /** The order check of a non-commutative rfactor, started as the source
      starts it: from the outermost loop with no reduction loop seen. */
  lemma OrderWalkMeansOuterClosed(dims: seq<Dim>, marks: seq<bool>)
    requires |marks| == |dims|
    ensures OrderWalk(dims, marks, |dims|, None).Ok? <==> OuterClosed(dims, marks)
  {
    assert NextRVar(dims, |dims|) == None;
    OrderWalkChecksNearest(dims, marks, |dims|);
    NearestIffClosed(dims, marks);
  }

  /** Position of the first reduction variable that `rv` refers to, or the
      end of the domain when there is none. */
  function Rank(rvars: seq<string>, rv: string): (r: nat)
    ensures r <= |rvars|
    ensures r < |rvars| ==> NameMatch(rvars[r], rv)
    ensures forall k :: 0 <= k < r ==> !NameMatch(rvars[k], rv)
  {
    if |rvars| == 0 then 0
    else if NameMatch(rvars[0], rv) then 0
    else Rank(rvars[1..], rv) + 1
  }

  /** The sort key of a pair. */
  function RankKey(rvars: seq<string>): Preserve -> int {
    (p: Preserve) => Rank(rvars, p.rvar)
  }

  /** The pairs ordered by the position of their reduction variable in the
      reduction domain (`std::sort`, not stable in C++, modelled stably). */
  function SortPreserved(rvars: seq<string>, ps: seq<Preserve>): (r: seq<Preserve>)
    ensures multiset(r) == multiset(ps)
    ensures forall i, j :: 0 <= i < j < |r| ==> Rank(rvars, r[i].rvar) <= Rank(rvars, r[j].rvar)
  {
    var r := SortBy(ps, RankKey(rvars));
    assert forall i, j :: 0 <= i < j < |r| ==> RankKey(rvars)(r[i]) <= RankKey(rvars)(r[j]);
    r
  }

  /** The reduction variables of the pairs. */
  function RVarsOf(ps: seq<Preserve>): (r: seq<string>)
    ensures |r| == |ps| && forall k :: 0 <= k < |ps| ==> r[k] == ps[k].rvar
  {
    seq(|ps|, k requires 0 <= k < |ps| => ps[k].rvar)
  }

  /** Some name in `names` refers to the reduction variable `x`. */
  predicate Named(x: string, names: seq<string>) {
    exists k :: 0 <= k < |names| && NameMatch(x, names[k])
  }

  function NamedBy(names: seq<string>): string -> bool {
    (x: string) => Named(x, names)
  }

  /** The reduction variables no pair refers to: the domain of the
      intermediate function. */
  function Lifted(rvars: seq<string>, ps: seq<Preserve>): (r: seq<string>)
    ensures IsSubsequence(r, rvars)
    ensures forall x :: x in r ==> !Named(x, RVarsOf(ps))
  {
    Partition(rvars, NamedBy(RVarsOf(ps))).1
  }

  /** The reduction variables some kept name refers to: the domain of the
      merge stage. */
  function Kept(rvars: seq<string>, keptNames: seq<string>): (r: seq<string>)
    ensures IsSubsequence(r, rvars)
    ensures forall x :: x in r ==> Named(x, keptNames)
  {
    Partition(rvars, NamedBy(keptNames)).0
  }

  /** The user-facing checks of `Stage::rfactor`, in the source's order. */
  function RfactorChecks(s: Stage, ps: seq<Preserve>, prover: AssocResult): (r: Result<(), Error>)
    ensures s.isInit ==> r == Err(NotUpdateDefinition)
    ensures !s.isInit && !prover.associative ==> r == Err(NotAssociative)
    ensures r.Ok? <==> !s.isInit && prover.associative
                       && (forall k :: 0 <= k < |ps| ==> PairOk(s.dims, ps[k]))
                       && (prover.commutative || OuterClosed(s.dims, Marks(s.dims, ps)))
    ensures r.Err? && !s.isInit && prover.associative && (forall k :: 0 <= k < |ps| ==> PairOk(s.dims, ps[k]))
            ==> exists i :: 0 <= i < |s.dims| && Rfactored(s.dims, ps, i)
                            && r.error == NonCommutativeOrder(s.dims[i].name)
    ensures r.Err? && !s.isInit && prover.associative
            ==> r.error.NonCommutativeOrder?
                || exists k :: 0 <= k < |ps| && !PairOk(s.dims, ps[k]) && r.error == PairError(s.dims, ps[k])
                               && forall j :: 0 <= j < k ==> PairOk(s.dims, ps[j])
  {
    if s.isInit then Err(NotUpdateDefinition)
    else if !prover.associative then Err(NotAssociative)
    else
      var _ :- CheckPairs(s.dims, ps);
      var marks := Marks(s.dims, ps);
      OrderWalkMeansOuterClosed(s.dims, marks);
      if prover.commutative then Ok(()) else OrderWalk(s.dims, marks, |s.dims|, None)
  }

  /** How rfactor divides the reduction domain `rvars` once its checks
      pass. */
  function MakePlan(rvars: seq<string>, ps: seq<Preserve>): (r: Plan)
    ensures multiset(r.preserved) == multiset(ps)
    ensures forall i, j :: 0 <= i < j < |r.preserved|
              ==> Rank(rvars, r.preserved[i].rvar) <= Rank(rvars, r.preserved[j].rvar)
    ensures r.intermediate == Lifted(rvars, ps)
    ensures multiset(r.intermediate) + multiset(r.kept) == multiset(rvars)
    ensures IsSubsequence(r.kept, rvars)
  {
    var sorted := SortPreserved(rvars, ps);
    KeptAgainstPairs(rvars, ps, sorted);
    Plan(sorted, Lifted(rvars, ps), Kept(rvars, RVarsOf(sorted)))
  }

  /** `Stage::rfactor` up to the construction of the new definitions.
      `rvars` is the stage's reduction domain after its split directives
      are applied; `prover` is what the associativity prover says about the
      update. */
  function Rfactor(s: Stage, rvars: seq<string>, ps: seq<Preserve>, prover: AssocResult): (r: Result<Plan, Error>)
    ensures r.Ok? <==> RfactorChecks(s, ps, prover).Ok?
    ensures r.Err? ==> r.error == RfactorChecks(s, ps, prover).error
    ensures r.Ok? ==> r.value.intermediate == Lifted(rvars, ps)
    ensures r.Ok? ==> multiset(r.value.intermediate) + multiset(r.value.kept) == multiset(rvars)
    ensures r.Ok? ==> multiset(r.value.preserved) == multiset(ps)
    ensures r.Ok? ==> forall i, j :: 0 <= i < j < |r.value.preserved|
                        ==> Rank(rvars, r.value.preserved[i].rvar) <= Rank(rvars, r.value.preserved[j].rvar)
    ensures r.Ok? ==> IsSubsequence(r.value.kept, rvars)
  {
    var _ :- RfactorChecks(s, ps, prover);
    Ok(MakePlan(rvars, ps))
  }

  /** Reordering the pairs does not change which reduction variables they
      name, so the domain kept by the sorted pairs is the complement of the
      lifted one. */
  lemma KeptAgainstPairs(rvars: seq<string>, ps: seq<Preserve>, sorted: seq<Preserve>)
    requires multiset(sorted) == multiset(ps)
    ensures Partition(rvars, NamedBy(RVarsOf(sorted))) == Partition(rvars, NamedBy(RVarsOf(ps)))
    ensures multiset(Lifted(rvars, ps)) + multiset(Kept(rvars, RVarsOf(sorted))) == multiset(rvars)
  {
    forall x ensures Named(x, RVarsOf(sorted)) <==> Named(x, RVarsOf(ps)) {
      if Named(x, RVarsOf(sorted)) {
        NamedPermutation(x, sorted, ps);
      }
      if Named(x, RVarsOf(ps)) {
        NamedPermutation(x, ps, sorted);
      }
    }
    PartitionAgree(rvars, NamedBy(RVarsOf(sorted)), NamedBy(RVarsOf(ps)));
  }

  /** A name referred to by some pair of `a` is referred to by a pair of
      any permutation `b` of `a`. */
  lemma NamedPermutation(x: string, a: seq<Preserve>, b: seq<Preserve>)
    requires multiset(a) == multiset(b)
    requires Named(x, RVarsOf(a))
    ensures Named(x, RVarsOf(b))
  {
    var k :| 0 <= k < |a| && NameMatch(x, RVarsOf(a)[k]);
    assert a[k] in multiset(b);
    var m :| 0 <= m < |b| && b[m] == a[k];
    assert NameMatch(x, RVarsOf(b)[m]);
  }

  /** Partitions by predicates that agree on every element are equal. */
  lemma {:induction false} PartitionAgree<T>(s: seq<T>, p: T -> bool, q: T -> bool)
    requires forall x :: x in s ==> p(x) == q(x)
    ensures Partition(s, p) == Partition(s, q)
    decreases |s|
  {
    if |s| > 0 {
      PartitionAgree(s[..|s| - 1], p, q);
    }
  }

  /** The stage `f(x) = f(x) op g(rx, ry)` with loops `rx` (innermost), `ry`
      and `x`, and the pair factoring `rx` into the new variable `u`. */
  function InnerPairScenario(rx: string, ry: string, x: string, u: string): (r: (Stage, seq<Preserve>))
    ensures |r.0.dims| == 3 && r.0.dims[0].name == rx && r.0.dims[1].name == ry && r.0.dims[2].name == x
    ensures IsRVar(r.0.dims[0]) && IsRVar(r.0.dims[1]) && !IsRVar(r.0.dims[2])
    ensures !r.0.isInit && r.1 == [Preserve(rx, u)]
  {
    (Stage([Dim(rx, Serial, PureRVar), Dim(ry, Serial, PureRVar), Dim(x, Serial, PureVar)], [],
           false, false, false, false, None),
     [Preserve(rx, u)])
  }

  /** Factoring only the inner reduction loop `rx` passes the pair checks
      and marks only that loop. */
  lemma InnerPairChecks(rx: string, ry: string, x: string, u: string)
    requires Unqualified(rx) && Unqualified(ry) && Unqualified(x)
    requires rx != ry && u != rx && u != ry && u != x
    ensures var (s, ps) := InnerPairScenario(rx, ry, x, u);
            PairOk(s.dims, ps[0]) && Rfactored(s.dims, ps, 0) && !Rfactored(s.dims, ps, 1)
  {
    var (s, ps) := InnerPairScenario(rx, ry, x, u);
    UnqualifiedMatchesOnlyItself(rx, u);
    UnqualifiedMatchesOnlyItself(ry, u);
    UnqualifiedMatchesOnlyItself(x, u);
    UnqualifiedMatchesOnlyItself(rx, rx);
    FirstMatchAt(s.dims, rx, 0);
    assert !Refers(s.dims, u);
  }

  /** A non-commutative reduction refuses to factor its inner reduction loop
      alone, naming that loop; a commutative one accepts the same pair. */
  lemma InnerRfactorNeedsCommutativity(rx: string, ry: string, x: string, u: string)
    requires Unqualified(rx) && Unqualified(ry) && Unqualified(x)
    requires rx != ry && u != rx && u != ry && u != x
    ensures var (s, ps) := InnerPairScenario(rx, ry, x, u);
            RfactorChecks(s, ps, AssocResult(true, false)) == Err(NonCommutativeOrder(rx))
            && RfactorChecks(s, ps, AssocResult(true, true)) == Ok(())
  {
    var (s, ps) := InnerPairScenario(rx, ry, x, u);
    InnerPairChecks(rx, ry, x, u);
    var marks := Marks(s.dims, ps);
    assert !OuterClosed(s.dims, marks) by {
      assert marks[0] && IsRVar(s.dims[1]) && !marks[1];
    }
    assert marks[0] && !marks[1] && !IsRVar(s.dims[2]);
    assert OrderWalk(s.dims, marks, 3, None) == OrderWalk(s.dims, marks, 2, None);
    assert OrderWalk(s.dims, marks, 2, None) == OrderWalk(s.dims, marks, 1, Some(1));
  }
}

=== FILE: schedule.dfy ===
/** The schedule state of one stage (one pure or update definition of a Func)
    as Halide/src/Func.cpp manipulates it: an ordered list of loop dimensions,
    innermost first, and the history of split-like directives that produced
    their names. */
module Schedule {
  import opened Wrappers
  import opened Names

  /** How a loop is iterated. */
  datatype ForType = Serial | Parallel | Vectorized | Unrolled | Extern | GPUBlock | GPUThread | GPULane

  /** Whether iterations of a loop of this type may run out of order or at
      the same time. The definition of `is_parallel` is not part of this
      model; it is assumed to hold for the parallel, vector and GPU types. */
  predicate IsParallel(t: ForType) {
    t == Parallel || t == Vectorized || t == GPUBlock || t == GPUThread || t == GPULane
  }

  /** Kind of a loop dimension: a pure variable, a reduction variable whose
      loop alone determines one reduction step, or an impure reduction
      variable. */
  datatype DimKind = PureVar | PureRVar | ImpureRVar

  /** One loop of the stage's loop nest. */
  datatype Dim = Dim(name: string, forType: ForType, kind: DimKind)

  /** `Dim::is_pure()`; its definition is not part of this model and is
      assumed to be: a pure variable or a pure reduction variable. */
  predicate IsPure(d: Dim) {
    d.kind == PureVar || d.kind == PureRVar
  }

  /** `Dim::is_rvar()`; assumed to be: a pure or impure reduction variable. */
  predicate IsRVar(d: Dim) {
    d.kind == PureRVar || d.kind == ImpureRVar
  }

  /** Policy for a loop extent that the split factor does not divide. */
  datatype TailStrategy = RoundUp | GuardWithIf | ShiftInwards | Auto

  datatype SplitKind = SplitVar | FuseVars | RenameVar | PurifyRVar

  /** One history entry. For a split, `oldVar` is split into `outer` and
      `inner`; for a fuse, `inner` and `outer` are fused into `oldVar`; for a
      rename or a purify, `oldVar` becomes `outer` and `inner` is empty. The
      factor of a fuse is an undefined expression in Halide; it is stored as
      0 here and nothing reads it. */
  datatype Split = Split(oldVar: string, outer: string, inner: string,
                         factor: int, exact: bool, tail: TailStrategy, kind: SplitKind)

  /** A loop variable as a directive receives it: a `Var` or an `RVar`. */
  datatype VarRef = VarRef(name: string, isRVar: bool)

  /** What the external associativity prover says about a stage's update. */
  datatype AssocResult = AssocResult(associative: bool, commutative: bool)

  /** A split factor: a positive integer constant. */
  type Factor = n: int | n > 0 witness 1

  /** The schedule of one definition. `fuseLevel` is the loop variable at
      which a `compute_with` fuses this stage, or None when it has none. */
  datatype Stage = Stage(dims: seq<Dim>, splits: seq<Split>, isInit: bool,
                         allowRace: bool, atomic: bool, overrideAssoc: bool,
                         fuseLevel: Option<VarRef>)

  /** User-facing failures of the directives; `InternalError` stands for a
      failed internal assertion. */
  datatype Error =
    | DimNotFound(name: string)
    | NameCollision(name: string)
    | VarRVarMismatch(name: string)
    | RoundUpInUpdate(name: string)
    | ShiftInwardsInUpdate(name: string)
    | ExactNeedsGuardWithIf(name: string)
    | RaceCondition(name: string)
    | AtomicNotAssociative
    | MultipleVectorization(name: string)
    | AlreadyFused(name: string)
    | AlreadyTransformed(name: string)
    | UnsafeReorder(first: string, second: string)
    | DuplicateReorder(name: string)
    | NotUpdateDefinition
    | NotAssociative
    | NotInReductionDomain(name: string)
    | NonCommutativeOrder(name: string)
    | InternalError

  /** Index of the first dimension `v` refers to: the search every directive
      but `reorder` performs. */
  function FindFirst(dims: seq<Dim>, v: string): (r: Option<nat>)
    ensures r.Some? ==> r.value < |dims| && NameMatch(dims[r.value].name, v)
    ensures r.Some? ==> forall j :: 0 <= j < r.value ==> !NameMatch(dims[j].name, v)
    ensures r.None? <==> forall j :: 0 <= j < |dims| ==> !NameMatch(dims[j].name, v)
  {
    if |dims| == 0 then None
    else if NameMatch(dims[0].name, v) then Some(0)
    else
      match FindFirst(dims[1..], v)
      case None => None
      case Some(k) => Some(k + 1)
  }

  /** A match with no match before it is the first one. */
  lemma FirstMatchAt(dims: seq<Dim>, v: string, i: nat)
    requires i < |dims| && NameMatch(dims[i].name, v)
    requires forall j :: 0 <= j < i ==> !NameMatch(dims[j].name, v)
    ensures FindFirst(dims, v) == Some(i)
  {
  }

  /** Index of the last dimension `v` refers to: the search of `reorder`,
      whose loop does not stop at the first match. */
  function FindLast(dims: seq<Dim>, v: string): (r: Option<nat>)
    ensures r.Some? ==> r.value < |dims| && NameMatch(dims[r.value].name, v)
    ensures r.Some? ==> forall j :: r.value < j < |dims| ==> !NameMatch(dims[j].name, v)
    ensures r.None? <==> forall j :: 0 <= j < |dims| ==> !NameMatch(dims[j].name, v)
  {
    if |dims| == 0 then None
    else if NameMatch(dims[|dims| - 1].name, v) then Some(|dims| - 1)
    else FindLast(dims[..|dims| - 1], v)
  }

  /** Whether `v` refers to any dimension. */
  predicate Refers(dims: seq<Dim>, v: string) {
    exists j :: 0 <= j < |dims| && NameMatch(dims[j].name, v)
  }
}

=== FILE: seqs.dfy ===
/** Sequence tools the directives are built from: order-preserving
    partition, insertion sort by a key, and gathering and scattering
    elements by index. */
module Seqs {

  /** `a` is obtained from `b` by deleting elements, keeping the order of
      the rest. */
  predicate IsSubsequence<T(==)>(a: seq<T>, b: seq<T>)
    decreases |b|
  {
    |a| == 0
    || (|b| > 0
        && ((a[|a| - 1] == b[|b| - 1] && IsSubsequence(a[..|a| - 1], b[..|b| - 1]))
            || IsSubsequence(a, b[..|b| - 1])))
  }

  /** `s` without its element at index `i` (`vector::erase`). */
  function RemoveAt<T>(s: seq<T>, i: nat): (r: seq<T>)
    requires i < |s|
    ensures |r| == |s| - 1
    ensures forall j :: 0 <= j < i ==> r[j] == s[j]
    ensures forall j :: i <= j < |r| ==> r[j] == s[j + 1]
    ensures multiset(r) + multiset{s[i]} == multiset(s)
  {
    assert s == s[..i] + [s[i]] + s[i + 1..];
    s[..i] + s[i + 1..]
  }

  /** A subsequence of `b` stays one when `b` grows at the end, and grows
      with it. */
  lemma SubsequenceAppend<T>(a: seq<T>, b: seq<T>, e: T)
    requires IsSubsequence(a, b)
    ensures IsSubsequence(a, b + [e]) && IsSubsequence(a + [e], b + [e])
  {
    assert (b + [e])[..|b|] == b;
    assert (a + [e])[..|a|] == a;
  }

  /** Multiset union cancels. */
  lemma MultisetCancel<T>(a: multiset<T>, b: multiset<T>, c: multiset<T>)
    requires a + b == c + b
    ensures a == c
  {
    forall y ensures a[y] == c[y] {
      assert (a + b)[y] == (c + b)[y];
    }
  }

  /** Index of the first element from `from` on that fails `ok`, or `|s|`
      when every one passes. */
  function FirstFailing<T>(s: seq<T>, ok: T -> bool, from: nat): (r: nat)
    requires from <= |s|
    ensures from <= r <= |s|
    ensures forall k :: from <= k < r ==> ok(s[k])
    ensures r < |s| ==> !ok(s[r])
    decreases |s| - from
  {
    if from == |s| then |s|
    else if !ok(s[from]) then from
    else FirstFailing(s, ok, from + 1)
  }

  /** No element occurs twice. */
  predicate Distinct<T(==)>(s: seq<T>) {
    forall i, j :: 0 <= i < j < |s| ==> s[i] != s[j]
  }

  /** Splits `s` into the elements satisfying `p` and the others, each in
      their original order. */
  function Partition<T(==)>(s: seq<T>, p: T -> bool): (r: (seq<T>, seq<T>))
    ensures forall x :: x in r.0 ==> p(x)
    ensures forall x :: x in r.1 ==> !p(x)
    ensures multiset(r.0) + multiset(r.1) == multiset(s)
    ensures IsSubsequence(r.0, s) && IsSubsequence(r.1, s)
    decreases |s|
  {
    if |s| == 0 then ([], [])
    else
      var last := s[|s| - 1];
      var front := Partition(s[..|s| - 1], p);
      assert s == s[..|s| - 1] + [last];
      if p(last) then
        var yes := front.0 + [last];
        assert yes[..|yes| - 1] == front.0;
        (yes, front.1)
      else
        var no := front.1 + [last];
        assert no[..|no| - 1] == front.1;
        (front.0, no)
  }

  predicate SortedBy<T>(s: seq<T>, key: T -> int) {
    forall i, j :: 0 <= i < j < |s| ==> key(s[i]) <= key(s[j])
  }

  /** Inserts `x` in front of the first element whose key is not smaller. */
  function InsertBy<T>(x: T, s: seq<T>, key: T -> int): (r: seq<T>)
    requires SortedBy(s, key)
    ensures SortedBy(r, key)
    ensures multiset(r) == multiset(s) + multiset{x}
  {
    if |s| == 0 then [x]
    else if key(x) <= key(s[0]) then [x] + s
    else
      var rest := InsertBy(x, s[1..], key);
      assert s == [s[0]] + s[1..];
      ConsSorted(s[0], rest, s[1..], x, key);
      [s[0]] + rest
  }

  /** Putting `h` in front of a sorted permutation of `t` and `x` keeps it
      sorted when `h` has the smallest key. */
  lemma ConsSorted<T>(h: T, rest: seq<T>, t: seq<T>, x: T, key: T -> int)
    requires SortedBy(rest, key) && multiset(rest) == multiset(t) + multiset{x}
    requires key(h) <= key(x) && forall k :: 0 <= k < |t| ==> key(h) <= key(t[k])
    ensures SortedBy([h] + rest, key)
  {
    forall y | y in rest ensures key(h) <= key(y) {
      assert y in multiset(rest);
      if y != x {
        assert y in multiset(t);
        var k :| 0 <= k < |t| && t[k] == y;
      }
    }
    var r := [h] + rest;
    forall i, j | 0 <= i < j < |r| ensures key(r[i]) <= key(r[j]) {
      assert r[j] == rest[j - 1];
      if i > 0 {
        assert r[i] == rest[i - 1];
      }
    }
  }

  /** Insertion sort by a key; it is stable, keeping equal keys in their
      original order. */
  function SortBy<T>(s: seq<T>, key: T -> int): (r: seq<T>)
    ensures SortedBy(r, key)
    ensures multiset(r) == multiset(s)
  {
    if |s| == 0 then []
    else
      assert s == [s[0]] + s[1..];
      InsertBy(s[0], SortBy(s[1..], key), key)
  }

  /** Distinctness is a property of the multiset of elements. */
  lemma {:induction false} DistinctIffSingleCounts<T>(s: seq<T>)
    ensures Distinct(s) <==> forall x :: multiset(s)[x] <= 1
  {
    if |s| > 0 {
      var t := s[1..];
      assert s == [s[0]] + t;
      DistinctIffSingleCounts(t);
      if Distinct(s) {
        assert s[0] !in t by {
          forall k | 0 <= k < |t| ensures t[k] != s[0] {
            assert t[k] == s[k + 1];
          }
        }
        assert Distinct(t) by {
          forall i, j | 0 <= i < j < |t| ensures t[i] != t[j] {
            assert t[i] == s[i + 1] && t[j] == s[j + 1];
          }
        }
      }
      if forall x :: multiset(s)[x] <= 1 {
        assert multiset(s)[s[0]] == 1 + multiset(t)[s[0]];
        assert s[0] !in t;
        assert forall x :: multiset(t)[x] <= multiset(s)[x];
        forall i, j | 0 <= i < j < |s| ensures s[i] != s[j] {
          if i == 0 {
            assert s[j] == t[j - 1];
          } else {
            assert s[i] == t[i - 1] && s[j] == t[j - 1];
          }
        }
      }
    }
  }

  lemma DistinctPermutation<T>(a: seq<T>, b: seq<T>)
    requires multiset(a) == multiset(b) && Distinct(a)
    ensures Distinct(b)
  {
    DistinctIffSingleCounts(a);
    DistinctIffSingleCounts(b);
  }

  predicate InRange(ix: seq<nat>, n: nat) {
    forall k :: 0 <= k < |ix| ==> ix[k] < n
  }

  /** The elements of `x` at the indices `ix`, in that order. */
  function Gather<T>(x: seq<T>, ix: seq<nat>): (r: seq<T>)
    requires InRange(ix, |x|)
    ensures |r| == |ix|
    ensures forall k :: 0 <= k < |ix| ==> r[k] == x[ix[k]]
  {
    seq(|ix|, k requires 0 <= k < |ix| => x[ix[k]])
  }

  /** Gathering along two permutations of the same indices yields the same
      elements. */
  lemma {:induction false} GatherPermutation<T>(x: seq<T>, a: seq<nat>, b: seq<nat>)
    requires InRange(a, |x|) && InRange(b, |x|)
    requires multiset(a) == multiset(b)
    ensures multiset(Gather(x, a)) == multiset(Gather(x, b))
    decreases |a|
  {
    if |a| == 0 {
      assert |multiset(b)| == 0;
      assert b == [];
    } else {
      var v := a[0];
      assert v in multiset(b);
      var b1, b2 := SplitAtOccurrence(b, v);
      assert a == [v] + a[1..];
      RemoveOne(a[1..], b1, b2, v);
      InRangeSplice(b1, b2, v, |x|);
      GatherPermutation(x, a[1..], b1 + b2);
      GatherSplice(x, a[1..], b1, b2, v);
    }
  }

  /** `b` around one occurrence of `v`. */
  lemma SplitAtOccurrence<T>(b: seq<T>, v: T) returns (b1: seq<T>, b2: seq<T>)
    requires v in multiset(b)
    ensures b == b1 + [v] + b2
  {
    var j :| 0 <= j < |b| && b[j] == v;
    b1, b2 := b[..j], b[j + 1..];
    assert b == b1 + [v] + b2;
  }

  /** Dropping an index keeps the rest in range. */
  lemma InRangeSplice(b1: seq<nat>, b2: seq<nat>, v: nat, n: nat)
    requires InRange(b1 + [v] + b2, n)
    ensures InRange(b1, n) && InRange(b2, n) && InRange(b1 + b2, n) && v < n
  {
    var b := b1 + [v] + b2;
    assert forall k :: 0 <= k < |b1| ==> b1[k] == b[k];
    assert forall k :: 0 <= k < |b2| ==> b2[k] == b[|b1| + 1 + k];
    assert b[|b1|] == v;
  }

  lemma GatherSplice<T>(x: seq<T>, a: seq<nat>, b1: seq<nat>, b2: seq<nat>, v: nat)
    requires v < |x| && InRange(a, |x|) && InRange(b1, |x|) && InRange(b2, |x|)
    requires InRange(b1 + b2, |x|)
    requires multiset(Gather(x, a)) == multiset(Gather(x, b1 + b2))
    ensures InRange([v] + a, |x|) && InRange(b1 + [v] + b2, |x|)
    ensures multiset(Gather(x, [v] + a)) == multiset(Gather(x, b1 + [v] + b2))
  {
    GatherConcat(x, [v], a);
    GatherConcat(x, b1, [v]);
    GatherConcat(x, b1 + [v], b2);
    GatherConcat(x, b1, b2);
    var g1, g2 := Gather(x, b1), Gather(x, b2);
    assert Gather(x, [v]) == [x[v]];
    assert multiset(Gather(x, b1 + [v] + b2)) == multiset(g1) + multiset{x[v]} + multiset(g2);
    assert multiset(Gather(x, [v] + a)) == multiset{x[v]} + multiset(Gather(x, a));
  }

  lemma RemoveOne<T>(a: seq<T>, b1: seq<T>, b2: seq<T>, v: T)
    requires multiset([v] + a) == multiset(b1 + [v] + b2)
    ensures multiset(a) == multiset(b1 + b2)
  {
    assert multiset([v] + a) == multiset{v} + multiset(a);
    assert multiset(b1 + [v] + b2) == multiset(b1) + multiset{v} + multiset(b2);
    assert multiset(b1 + b2) == multiset(b1) + multiset(b2);
    forall y ensures multiset(a)[y] == multiset(b1 + b2)[y] {
      assert multiset([v] + a)[y] == multiset{v}[y] + multiset(a)[y];
      assert multiset(b1 + [v] + b2)[y] == multiset{v}[y] + multiset(b1 + b2)[y];
    }
  }

  lemma GatherConcat<T>(x: seq<T>, a: seq<nat>, b: seq<nat>)
    requires InRange(a, |x|) && InRange(b, |x|)
    ensures InRange(a + b, |x|)
    ensures Gather(x, a + b) == Gather(x, a) + Gather(x, b)
  {
    assert forall k :: 0 <= k < |a + b| ==> (a + b)[k] == (if k < |a| then a[k] else b[k - |a|]);
  }

  /** Writes `vals[k]` at index `pos[k]` of `x`, for k in increasing order. */
  function Scatter<T>(x: seq<T>, pos: seq<nat>, vals: seq<T>): (r: seq<T>)
    requires |pos| == |vals| && InRange(pos, |x|)
    ensures |r| == |x|
    ensures forall i :: 0 <= i < |x| && i !in pos ==> r[i] == x[i]
    ensures Distinct(pos) ==> forall k :: 0 <= k < |pos| ==> r[pos[k]] == vals[k]
    decreases |pos|
  {
    if |pos| == 0 then x
    else
      var r := Scatter(x[pos[0] := vals[0]], pos[1..], vals[1..]);
      assert forall i :: i in pos[1..] ==> i in pos;
      assert Distinct(pos) ==> pos[0] !in pos[1..] && Distinct(pos[1..]);
      assert forall k :: 1 <= k < |pos| ==> pos[k] == pos[1..][k - 1] && vals[k] == vals[1..][k - 1];
      r
  }

  /** Scattering to distinct positions trades the overwritten elements for
      the written ones. */
  lemma {:induction false} ScatterMultiset<T>(x: seq<T>, pos: seq<nat>, vals: seq<T>)
    requires |pos| == |vals| && InRange(pos, |x|) && Distinct(pos)
    ensures multiset(Scatter(x, pos, vals)) + multiset(Gather(x, pos)) == multiset(x) + multiset(vals)
    decreases |pos|
  {
    if |pos| > 0 {
      var p, v := pos[0], vals[0];
      var x' := x[p := v];
      assert Distinct(pos[1..]) && p !in pos[1..] by {
        assert forall k :: 0 <= k < |pos[1..]| ==> pos[1..][k] == pos[k + 1];
      }
      ScatterMultiset(x', pos[1..], vals[1..]);
      GatherUnchanged(x, p, v, pos[1..]);
      ScatterStep(x, pos, vals, Scatter(x, pos, vals));
    }
  }

  /** The arithmetic of one step of `ScatterMultiset`. */
  lemma ScatterStep<T>(x: seq<T>, pos: seq<nat>, vals: seq<T>, sc: seq<T>)
    requires |pos| == |vals| > 0 && InRange(pos, |x|)
    requires var x' := x[pos[0] := vals[0]];
             multiset(sc) + multiset(Gather(x, pos[1..])) == multiset(x') + multiset(vals[1..])
    ensures multiset(sc) + multiset(Gather(x, pos)) == multiset(x) + multiset(vals)
  {
    var p, v := pos[0], vals[0];
    var x' := x[p := v];
    var g := Gather(x, pos[1..]);
    assert Gather(x, pos) == [x[p]] + g;
    assert vals == [v] + vals[1..];
    assert multiset(x') == multiset(x) - multiset{x[p]} + multiset{v};
    assert x[p] in multiset(x);
    forall y ensures (multiset(sc) + multiset(Gather(x, pos)))[y] == (multiset(x) + multiset(vals))[y] {
      assert (multiset(sc) + multiset(g))[y] == (multiset(x') + multiset(vals[1..]))[y];
      assert multiset(Gather(x, pos))[y] == multiset{x[p]}[y] + multiset(g)[y];
      assert multiset(vals)[y] == multiset{v}[y] + multiset(vals[1..])[y];
    }
    assert multiset(sc) + multiset(Gather(x, pos)) == multiset(x) + multiset(vals);
  }

  /** Gathering ignores a write to an index not gathered. */
  lemma GatherUnchanged<T>(x: seq<T>, p: nat, v: T, ix: seq<nat>)
    requires p < |x| && InRange(ix, |x|) && p !in ix
    ensures Gather(x[p := v], ix) == Gather(x, ix)
  {
    var a, b := Gather(x[p := v], ix), Gather(x, ix);
    forall k | 0 <= k < |ix| ensures a[k] == b[k] {
      assert ix[k] != p;
    }
  }
}

=== FILE: split.dfy ===
/** `Stage::split` (Halide/src/Func.cpp): one loop becomes an inner and an
    outer loop, and the tail strategy for extents the factor does not divide
    is chosen or checked. */
module Splitting {
  import opened Wrappers
  import opened Names
  import opened Schedule

  // ---------------------------------------------------------------------
  // Names descending from an inner variable (update definitions)
  // ---------------------------------------------------------------------

  /** One entry of the forward walk that collects every name descending
      from the inner variable of some split. */
  function InnerVarsStep(acc: set<string>, e: Split): set<string> {
    match e.kind
    case SplitVar =>
      var withInner := acc + {e.inner};
      if e.oldVar in withInner then withInner + {e.outer} else withInner
    case RenameVar => if e.oldVar in acc then acc + {e.outer} else acc
    case PurifyRVar => if e.oldVar in acc then acc + {e.outer} else acc
    case FuseVars => if e.inner in acc || e.outer in acc then acc + {e.oldVar} else acc
  }

  function InnerVarsFrom(acc: set<string>, h: seq<Split>): set<string>
    decreases |h|
  {
    if |h| == 0 then acc else InnerVarsFrom(InnerVarsStep(acc, h[0]), h[1..])
  }

  /** Names that descend from an earlier inner variable; splitting one of
      them with RoundUp could recompute values of an update. */
  function InnerVars(h: seq<Split>): (r: set<string>)
    ensures forall n :: n in r ==> exists k :: 0 <= k < |h| && MadeBy(h[k], n)
  {
    InnerVarsFromSound({}, h);
    InnerVarsFrom({}, h)
  }

  /** `n` is one of the loops history entry `e` made. */
  predicate MadeBy(e: Split, n: string) {
    match e.kind
    case SplitVar => n == e.inner || n == e.outer
    case FuseVars => n == e.oldVar
    case _ => n == e.outer
  }

  /** The walk only collects names some entry made. */
  lemma {:induction false} InnerVarsFromSound(acc: set<string>, h: seq<Split>)
    ensures forall n :: n in InnerVarsFrom(acc, h) ==> n in acc || exists k :: 0 <= k < |h| && MadeBy(h[k], n)
    decreases |h|
  {
    if |h| > 0 {
      var acc' := InnerVarsStep(acc, h[0]);
      InnerVarsFromSound(acc', h[1..]);
      forall n | n in InnerVarsFrom(acc, h) && n !in acc
        ensures exists k :: 0 <= k < |h| && MadeBy(h[k], n)
      {
        if n in acc' {
          assert MadeBy(h[0], n);
        } else {
          var k :| 0 <= k < |h[1..]| && MadeBy(h[1..][k], n);
          assert MadeBy(h[k + 1], n);
        }
      }
    }
  }

  lemma {:induction false} InnerVarsFromGrows(acc: set<string>, h: seq<Split>)
    ensures acc <= InnerVarsFrom(acc, h)
    decreases |h|
  {
    if |h| > 0 {
      InnerVarsFromGrows(InnerVarsStep(acc, h[0]), h[1..]);
    }
  }

  lemma {:induction false} InnerVarsFromSplit(acc: set<string>, h: seq<Split>, k: nat)
    requires k < |h|
    ensures InnerVarsFrom(acc, h) == InnerVarsFrom(InnerVarsStep(InnerVarsFrom(acc, h[..k]), h[k]), h[k + 1..])
    decreases k
  {
    if k > 0 {
      InnerVarsFromSplit(InnerVarsStep(acc, h[0]), h[1..], k - 1);
      assert h[1..][..k - 1] == h[1..k];
      assert h[1..][k - 1] == h[k] && h[1..][k..] == h[k + 1..];
      assert h[..k] == [h[0]] + h[1..k];
    }
  }

  /** Every inner variable of a split is an inner variable, and so is every
      later split, rename or purify result of an inner variable and every
      fuse involving one. */
  lemma InnerVarsClosed(h: seq<Split>, k: nat)
    requires k < |h|
    ensures h[k].kind == SplitVar ==> h[k].inner in InnerVars(h)
    ensures h[k].kind != FuseVars && h[k].oldVar in InnerVars(h[..k]) ==> h[k].outer in InnerVars(h)
    ensures (h[k].kind == FuseVars && (h[k].inner in InnerVars(h[..k]) || h[k].outer in InnerVars(h[..k])))
              ==> h[k].oldVar in InnerVars(h)
  {
    InnerVarsFromSplit({}, h, k);
    InnerVarsFromGrows(InnerVarsStep(InnerVarsFrom({}, h[..k]), h[k]), h[k + 1..]);
  }

  // ---------------------------------------------------------------------
  // Names covered by an earlier ShiftInwards split (init definitions)
  // ---------------------------------------------------------------------

  /** One entry of the forward walk mapping every name that descends from
      the outer variable of a ShiftInwards split to that split's factor. */
  function ShiftStep(m: map<string, int>, e: Split): map<string, int> {
    if e.kind == SplitVar && e.tail == ShiftInwards then m[e.outer := e.factor]
    else if e.kind == SplitVar && e.oldVar in m then m[e.inner := m[e.oldVar]][e.outer := m[e.oldVar]]
    else if (e.kind == RenameVar || e.kind == PurifyRVar) && e.oldVar in m then m[e.outer := m[e.oldVar]]
    else m
  }

  function ShiftFrom(m: map<string, int>, h: seq<Split>): map<string, int>
    decreases |h|
  {
    if |h| == 0 then m else ShiftFrom(ShiftStep(m, h[0]), h[1..])
  }

  /** Factor of the ShiftInwards split each name descends from. */
  function ShiftInwardsOuter(h: seq<Split>): (r: map<string, int>)
    ensures forall n :: n in r ==> IsShiftInwardsFactor(h, r[n])
  {
    ShiftFromFactors(map[], h, h);
    ShiftFrom(map[], h)
  }

  predicate IsShiftInwardsFactor(h: seq<Split>, f: int) {
    exists k :: 0 <= k < |h| && h[k].kind == SplitVar && h[k].tail == ShiftInwards && h[k].factor == f
  }

  lemma {:induction false} ShiftFromFactors(m: map<string, int>, h: seq<Split>, all: seq<Split>)
    requires forall n :: n in m ==> IsShiftInwardsFactor(all, m[n])
    requires forall k :: 0 <= k < |h| ==> h[k] in all
    ensures forall n :: n in ShiftFrom(m, h) ==> IsShiftInwardsFactor(all, ShiftFrom(m, h)[n])
    decreases |h|
  {
    if |h| > 0 {
      var e := h[0];
      if e.kind == SplitVar && e.tail == ShiftInwards {
        var k :| 0 <= k < |all| && all[k] == e;
      }
      assert forall k :: 0 <= k < |h[1..]| ==> h[1..][k] == h[k + 1];
      ShiftFromFactors(ShiftStep(m, e), h[1..], all);
    }
  }

  // ---------------------------------------------------------------------
  // Tail strategy
  // ---------------------------------------------------------------------

  /** The tail strategy of a split of the dimension `oldName` by `factor`:
      `Auto` is resolved, and an explicit choice that could change the
      meaning of the algorithm is refused. `proveGe(a, b)` stands for the
      simplifier's `can_prove(a >= b)`. */
  function ResolveTail(isInit: bool, exact: bool, tail: TailStrategy, oldName: string,
                       h: seq<Split>, factor: Factor, proveGe: (int, int) -> bool): (r: Result<TailStrategy, Error>)
    ensures r.Ok? ==> r.value != Auto
    ensures r.Ok? && tail != Auto ==> r.value == tail
    ensures r.Ok? && !isInit ==> r.value != ShiftInwards
    ensures r.Ok? && exact ==> r.value == GuardWithIf
    ensures tail == Auto && exact ==> r == Ok(GuardWithIf)
    ensures tail == Auto && !exact && !isInit ==>
              r == Ok(if oldName in InnerVars(h) then GuardWithIf else RoundUp)
    ensures tail == Auto && !exact && isInit ==>
              r == Ok(if oldName in ShiftInwardsOuter(h) && proveGe(ShiftInwardsOuter(h)[oldName], factor)
                      then RoundUp else ShiftInwards)
    ensures r.Err? <==>
              || (!isInit && !exact && tail == RoundUp && oldName in InnerVars(h))
              || (!isInit && tail == ShiftInwards)
              || (exact && tail != Auto && tail != GuardWithIf)
  {
    var roundUpOk := !exact && (isInit || oldName !in InnerVars(h));
    if !exact && !isInit && !roundUpOk && tail == RoundUp then
      Err(RoundUpInUpdate(oldName))
    else
      var chosen :=
        if tail != Auto then tail
        else if exact then GuardWithIf
        else if !isInit then (if roundUpOk then RoundUp else GuardWithIf)
        else
          var covered := ShiftInwardsOuter(h);
          if oldName in covered && proveGe(covered[oldName], factor) then RoundUp else ShiftInwards;
      if !isInit && chosen == ShiftInwards then Err(ShiftInwardsInUpdate(oldName))
      else if exact && chosen != GuardWithIf then Err(ExactNeedsGuardWithIf(oldName))
      else Ok(chosen)
  }

  // ---------------------------------------------------------------------
  // split
  // ---------------------------------------------------------------------

  /** A new name that is already in use: `n` refers to a dimension and is not
      the name being split. */
  predicate Collides(dims: seq<Dim>, oldVar: string, n: string) {
    n != oldVar && Refers(dims, n)
  }

  /** The collision check of `split`, dimension by dimension, inner name
      before outer name. */
  function FindCollision(dims: seq<Dim>, oldVar: string, inner: string, outer: string): (r: Option<string>)
    ensures r.None? <==> !Collides(dims, oldVar, inner) && !Collides(dims, oldVar, outer)
    ensures r.Some? ==> (r.value == inner || r.value == outer) && Collides(dims, oldVar, r.value)
  {
    if |dims| == 0 then None
    else if NameMatch(dims[0].name, inner) && inner != oldVar then Some(inner)
    else if NameMatch(dims[0].name, outer) && outer != oldVar then Some(outer)
    else
      var r := FindCollision(dims[1..], oldVar, inner, outer);
      assert forall j :: 1 <= j < |dims| ==> dims[j] == dims[1..][j - 1];
      assert r.Some? ==> Refers(dims, r.value) by {
        if r.Some? {
          var j :| 0 <= j < |dims[1..]| && NameMatch(dims[1..][j].name, r.value);
          assert NameMatch(dims[j + 1].name, r.value);
        }
      }
      r
  }

  /** The dimension list after splitting dimension `i`: the inner loop takes
      its place and the outer loop follows it; a split extern loop gets a
      serial outer loop. */
  function SplitAt(dims: seq<Dim>, i: nat, inner: string, outer: string): (r: seq<Dim>)
    requires i < |dims|
    ensures |r| == |dims| + 1
    ensures r[..i] == dims[..i] && r[i + 2..] == dims[i + 1..]
    ensures r[i] == dims[i].(name := dims[i].name + "." + inner)
    ensures r[i + 1] == dims[i].(name := dims[i].name + "." + outer,
                                 forType := if dims[i].forType == Extern then Serial else dims[i].forType)
    ensures NameMatch(r[i].name, inner) && NameMatch(r[i + 1].name, outer)
  {
    var d := dims[i];
    QualifiedNameMatches(d.name, inner);
    QualifiedNameMatches(d.name, outer);
    var innerDim := d.(name := d.name + "." + inner);
    var outerDim := d.(name := d.name + "." + outer,
                       forType := if d.forType == Extern then Serial else d.forType);
    var r := dims[..i] + [innerDim, outerDim] + dims[i + 1..];
    assert r[i + 2..] == dims[i + 1..];
    r
  }

  /** `Stage::split(old, outer, inner, factor, exact, tail)` on names: the
      first dimension `oldVar` refers to is replaced, in place, by the inner
      loop `oldVar.inner` followed by the outer loop `oldVar.outer`, and the
      split is appended to the history. */
  function SplitDim(s: Stage, oldVar: string, outer: string, inner: string, factor: Factor,
                    exact: bool, tail: TailStrategy, proveGe: (int, int) -> bool): (r: Result<Stage, Error>)
    ensures Collides(s.dims, oldVar, inner) || Collides(s.dims, oldVar, outer) ==> r.Err? && r.error.NameCollision?
    ensures !Collides(s.dims, oldVar, inner) && !Collides(s.dims, oldVar, outer) && !Refers(s.dims, oldVar) ==>
              r == Err(DimNotFound(oldVar))
    ensures r.Ok? <==>
              && !Collides(s.dims, oldVar, inner) && !Collides(s.dims, oldVar, outer) && Refers(s.dims, oldVar)
              && ResolveTail(s.isInit, exact, tail, s.dims[FindFirst(s.dims, oldVar).value].name,
                             s.splits, factor, proveGe).Ok?
    ensures !Collides(s.dims, oldVar, inner) && !Collides(s.dims, oldVar, outer) && Refers(s.dims, oldVar) ==>
              var t := ResolveTail(s.isInit, exact, tail, s.dims[FindFirst(s.dims, oldVar).value].name,
                                   s.splits, factor, proveGe);
              t.Err? ==> r == Err(t.error)
    ensures r.Ok? ==>
              var i := FindFirst(s.dims, oldVar).value;
              && r.value.dims == SplitAt(s.dims, i, inner, outer)
              && NameMatch(r.value.dims[i].name, inner)
              && NameMatch(r.value.dims[i + 1].name, outer)
    ensures r.Ok? ==> |r.value.splits| == |s.splits| + 1 && r.value.splits[..|s.splits|] == s.splits
    ensures r.Ok? ==>
              var d := s.dims[FindFirst(s.dims, oldVar).value];
              var e := r.value.splits[|s.splits|];
              && e.kind == SplitVar && e.oldVar == d.name && e.factor == factor && e.exact == exact
              && e.inner == d.name + "." + inner && e.outer == d.name + "." + outer
              && e.tail != Auto
              && (!s.isInit ==> e.tail != ShiftInwards)
              && (exact ==> e.tail == GuardWithIf)
              && ResolveTail(s.isInit, exact, tail, d.name, s.splits, factor, proveGe) == Ok(e.tail)
    ensures r.Ok? ==> r.value == s.(dims := r.value.dims, splits := r.value.splits)
  {
    var collision := FindCollision(s.dims, oldVar, inner, outer);
    if collision.Some? then Err(NameCollision(collision.value))
    else
      var found := FindFirst(s.dims, oldVar);
      if found.None? then Err(DimNotFound(oldVar))
      else
        var i := found.value;
        var d := s.dims[i];
        var t :- ResolveTail(s.isInit, exact, tail, d.name, s.splits, factor, proveGe);
        var e := Split(d.name, d.name + "." + outer, d.name + "." + inner, factor, exact, t, SplitVar);
        var splits := s.splits + [e];
        assert splits[..|s.splits|] == s.splits;
        Ok(s.(dims := SplitAt(s.dims, i, inner, outer), splits := splits))
  }

  /** `Stage::split(VarOrRVar old, VarOrRVar outer, VarOrRVar inner, factor,
      tail)`: a Var splits into Vars and an RVar into RVars, and an RVar split
      is always exact. */
  function SplitVarOrRVar(s: Stage, oldVar: VarRef, outer: VarRef, inner: VarRef, factor: Factor,
                          tail: TailStrategy, proveGe: (int, int) -> bool): (r: Result<Stage, Error>)
    ensures r.Ok? ==> outer.isRVar == oldVar.isRVar && inner.isRVar == oldVar.isRVar
    ensures oldVar.isRVar != outer.isRVar ==> r == Err(VarRVarMismatch(outer.name))
    ensures oldVar.isRVar == outer.isRVar && oldVar.isRVar != inner.isRVar ==> r == Err(VarRVarMismatch(inner.name))
    ensures r.Ok? ==> |r.value.splits| == |s.splits| + 1 && r.value.splits[|s.splits|].exact == oldVar.isRVar
    ensures r.Ok? && oldVar.isRVar ==> r.value.splits[|s.splits|].tail == GuardWithIf
    ensures outer.isRVar == oldVar.isRVar && inner.isRVar == oldVar.isRVar ==>
              r == SplitDim(s, oldVar.name, outer.name, inner.name, factor, oldVar.isRVar, tail, proveGe)
  {
    if oldVar.isRVar != outer.isRVar then Err(VarRVarMismatch(outer.name))
    else if oldVar.isRVar != inner.isRVar then Err(VarRVarMismatch(inner.name))
    else SplitDim(s, oldVar.name, outer.name, inner.name, factor, oldVar.isRVar, tail, proveGe)
  }

  // ---------------------------------------------------------------------
  // Scenarios
  // ---------------------------------------------------------------------

  /** `f.split(x, xo, xi, 8)` on a pure definition with no earlier split
      chooses ShiftInwards. */
  lemma DefaultTailOnInitIsShiftInwards(proveGe: (int, int) -> bool)
    ensures var s := Stage([Dim("x", Serial, PureVar)], [], true, false, false, false, None);
            var r := SplitDim(s, "x", "xo", "xi", 8, false, Auto, proveGe);
            && r.Ok?
            && r.value.dims == [Dim("x.xi", Serial, PureVar), Dim("x.xo", Serial, PureVar)]
            && r.value.splits == [Split("x", "x.xo", "x.xi", 8, false, ShiftInwards, SplitVar)]
  {
    var s := Stage([Dim("x", Serial, PureVar)], [], true, false, false, false, None);
    assert !NameMatch("x", "xo") && !NameMatch("x", "xi");
    assert !Collides(s.dims, "x", "xi") && !Collides(s.dims, "x", "xo");
    assert FindFirst(s.dims, "x") == Some(0);
    assert ShiftInwardsOuter([]) == map[];
    assert ResolveTail(true, false, Auto, "x", [], 8, proveGe) == Ok(ShiftInwards);
    assert "x" + "." + "xi" == "x.xi" && "x" + "." + "xo" == "x.xo";
  }

  /** `f.vectorize(x, 8)` on a pure definition: a ShiftInwards split of x. */
  lemma VectorizeSplitShiftsInwards()
    ensures var s := Stage([Dim("x", Serial, PureVar)], [], true, false, false, false, None);
            SplitDim(s, "x", "x", "v", 8, false, Auto, (a: int, b: int) => a >= b)
              == Ok(Stage([Dim("x.v", Serial, PureVar), Dim("x.x", Serial, PureVar)],
                          [Split("x", "x.x", "x.v", 8, false, ShiftInwards, SplitVar)],
                          true, false, false, false, None))
  {
    var s := Stage([Dim("x", Serial, PureVar)], [], true, false, false, false, None);
    assert !NameMatch("x", "v");
    assert !Collides(s.dims, "x", "v") && !Collides(s.dims, "x", "x");
    assert FindFirst(s.dims, "x") == Some(0);
    assert ShiftInwardsOuter([]) == map[];
    assert ResolveTail(true, false, Auto, "x", [], 8, (a: int, b: int) => a >= b) == Ok(ShiftInwards);
    assert "x" + "." + "v" == "x.v" && "x" + "." + "x" == "x.x";
    assert SplitAt(s.dims, 0, "v", "x") == [Dim("x.v", Serial, PureVar), Dim("x.x", Serial, PureVar)];
  }

  /** `f.vectorize(x, 8).unroll(x, 4)`: the outer loop of the vectorize split
      is already covered by its ShiftInwards tail, so the unroll split of it
      chooses RoundUp. */
  lemma UnrollAfterVectorizeRoundsUp()
    ensures var s1 := Stage([Dim("x.v", Serial, PureVar), Dim("x.x", Serial, PureVar)],
                            [Split("x", "x.x", "x.v", 8, false, ShiftInwards, SplitVar)],
                            true, false, false, false, None);
            var r2 := SplitDim(s1, "x", "x", "u", 4, false, Auto, (a: int, b: int) => a >= b);
            && r2.Ok?
            && r2.value.splits[1] == Split("x.x", "x.x.x", "x.x.u", 4, false, RoundUp, SplitVar)
  {
    var s1 := Stage([Dim("x.v", Serial, PureVar), Dim("x.x", Serial, PureVar)],
                    [Split("x", "x.x", "x.v", 8, false, ShiftInwards, SplitVar)],
                    true, false, false, false, None);
    var ge := (a: int, b: int) => a >= b;
    assert !NameMatch("x.v", "x") by {
      assert "x.v"[1..] != ".x";
    }
    assert !NameMatch("x.v", "u") && !NameMatch("x.x", "u");
    assert !Collides(s1.dims, "x", "u") && !Collides(s1.dims, "x", "x");
    assert NameMatch("x.x", "x") by {
      QualifiedNameMatches("x", "x");
    }
    assert FindFirst(s1.dims, "x") == Some(1);
    assert ShiftStep(map[], s1.splits[0]) == map["x.x" := 8];
    assert ShiftInwardsOuter(s1.splits) == map["x.x" := 8];
    assert ResolveTail(true, false, Auto, "x.x", s1.splits, 4, ge) == Ok(RoundUp);
    assert "x.x" + "." + "u" == "x.x.u" && "x.x" + "." + "x" == "x.x.x";
  }

  /** In an update, a loop that descends from an inner variable cannot be
      split with RoundUp; Auto falls back to GuardWithIf. */
  lemma UpdateSplitOfInnerVarGuards(proveGe: (int, int) -> bool)
    ensures var h := [Split("r", "r.ro", "r.ri", 4, false, GuardWithIf, SplitVar)];
            && ResolveTail(false, false, RoundUp, "r.ri", h, 2, proveGe) == Err(RoundUpInUpdate("r.ri"))
            && ResolveTail(false, false, Auto, "r.ri", h, 2, proveGe) == Ok(GuardWithIf)
            && ResolveTail(false, false, Auto, "r.ro", h, 2, proveGe) == Ok(RoundUp)
  {
    var h := [Split("r", "r.ro", "r.ri", 4, false, GuardWithIf, SplitVar)];
    assert InnerVars(h) == {"r.ri"};
  }
}

=== FILE: wrappers.dfy ===
/** Failure-carrying result types shared by every directive of the model. */
module Wrappers {

  /** A value that may be absent. */
  datatype Option<+T> = None | Some(value: T)

  /** A directive either succeeds with a value or fails with an error; a
      failure carries no partially updated state. */
  datatype Result<+T, +E> = Ok(value: T) | Err(error: E) {
    predicate IsFailure() {
      Err?
    }

    function PropagateFailure<U>(): Result<U, E>
      requires Err?
    {
      Err(error)
    }

    function Extract(): T
      requires Ok?
    {
      value
    }
  }
}
